=== FILE: README.md ===
# Image transformation service — a Dafny model of its core

The service lets a signed-in user upload photos, have an image model
transform them (try on an outfit, restyle a room, make a headshot, swap a
background), and keep a history of the results. This project models the
logic around that model call, as pure functions over explicit state:

- `RateLimiter` (`rate_limiter.dfy`): the hourly quota of five generations per
  user. A request either opens a fresh one-hour window, resets an expired one,
  is denied, or bumps the counter. `GetRateLimit` is the read-only status query.
  The `rate_limits` table is a map from user id to `(count, resetAt)`, and
  times are integer milliseconds.
- `RateLimiterPostgres` (`rate_limiter_postgres.dfy`): the Postgres copy of the
  limiter. It reads the `SELECT` result as a list of rows, and is proved to make
  the same decision and the same writes as the D1 copy.
- `ImageUploader` (`image_uploader.dfy`): the upload widget.
  - the file-selection loop with its size and type checks and its room check;
  - the merge with the current list, including JavaScript's `slice` with a
    negative end;
  - removing one image by position;
  - the "can add more" test.
- `Middleware` (`middleware.dfy`): the route guard. It lets `/login` and
  `/api/auth…` through, and sends a cookieless request for any other path it
  is run on to the login page.
- `Prompts` (`prompts.dfy`): the four prompt templates and their lookup.
- `GenerateRoute` (`generate_route.dfy`): the generation endpoint.
  - authentication, the 400 check and the route's own prompt table;
  - turning each data URL into an inline part: the payload after `base64,` and
    the MIME type guessed from the header;
  - the scan for the first candidate's inline image, with the text answer as
    fallback;
  - the error paths.

  The image model is a function parameter.
- `Db` and `DbPostgres` (`db.dfy`, `db_postgres.dfy`): the user upsert, saving a
  generation, and listing a user's generations, for the D1 driver and for
  Postgres. They share the query model in `Query` (`query.dfy`):
  - `WHERE`;
  - a stable `ORDER BY … DESC`;
  - `LIMIT`.
- `HistoryRoute` (`history_route.dfy`): the history endpoint.
  - `GET` lists the newest twenty entries;
  - `POST` stores one entry, with an id taken from the millisecond clock and a
    creation time in seconds;
  - the seconds/milliseconds conversion between the two.
- `Json` (`json.dfy`): `JSON.stringify`/`JSON.parse` restricted to arrays of
  strings, which is how image lists are stored. `Common` (`common.dfy`) holds
  the JavaScript helpers the routes rely on: truthiness, `x || null`,
  `startsWith`, `includes` and `split`, and `join` as the inverse against which
  `split` is proved.

Clocks, random UUIDs, the session lookup and the image model are inputs to the
functions that need them. Every database write returns the new table, or an
error where the driver would throw.

Where the D1 and Postgres copies, or the route and `lib/prompts.ts`, disagree, the model follows the code as written:

- The generation endpoint does not use the four templates of `lib/prompts.ts`.
  It has its own table, keyed by names the client never sends
  (`virtual-tryon`, `interior-design`, …). Only `headshot` matches; every other
  transform type gets the generic prompt `Transform this image.`
  `GenerateRoute.ClientTypesMostlyMiss` and `GenerateRoute.RouteIgnoresTemplates`
  state this.
- The D1 user upsert binds `name` and `image` as they come. When either is
  absent, the D1 driver refuses `undefined` and the call fails. The Postgres copy
  writes `NULL` instead, and also turns an empty string into `NULL`.
  `DbPostgres.UpsertDiffersOnFalsyName` shows both differences.
- The limiter resets a window only strictly after `resetAt`. A request at
  exactly `resetAt` still counts against the old window.

## Model

| member | source | states |
|---|---|---|
| RateLimiter.PlanCheck | lib/rate-limiter.ts:23-104 | A request is denied exactly when the user's row exists, its window has not ended, and its count has reached five. An admitted request makes exactly one write for that user, an INSERT when no row existed and an UPDATE otherwise. A denied one makes no write. |
| RateLimiter.CheckAndUpdate | lib/rate-limiter.ts:11-105 | Covers all four branches. A missing or expired row restarts at count 1 with a window ending one hour from now and 4 remaining. A full quota inside the window is denied with 0 remaining and the table left alone. Otherwise the count goes up by one and the window end is kept. Only the caller's row changes, and the table changes exactly when the request is admitted. |
| RateLimiter.GetRateLimit | lib/rate-limiter.ts:110-142 | There is no status exactly when the user has no row. An ended window reports count 0, five remaining and a reset one hour from now. A live window reports the stored count and reset time, with `remaining = 5 - min(count, 5)`, never negative. |
| RateLimiter.StatusMatchesDecision | lib/rate-limiter.ts:110-142 | The status read right after a check equals the rate limit that the check returned. |
| RateLimiter.ExpiredIsLikeFresh | lib/rate-limiter.ts:47-69 | An expired row is handled exactly as if the user had no row: the old count is forgotten. |
| RateLimiter.CheckPreservesWellFormed | lib/rate-limiter.ts:71-104 | Counts stay between 1 and 5 across any check. The reported remaining quota stays between 0 and 4. |
| RateLimiter.RunInsideWindow | lib/rate-limiter.ts:71-104 | Over requests that all fall inside one window, the k-th request is admitted exactly when `count + k < 5`. The count saturates at five, and the window end never moves. |
| RateLimiter.FreshBurst | lib/rate-limiter.ts:23-104 | For a new user's burst inside one hour, the first five requests pass with 4, 3, 2, 1, 0 remaining, and every later one is denied. |
| RateLimiter.BurstThenReset | lib/rate-limiter.ts:23-104 | Five requests pass and the sixth is denied at count 5. The first request after the window ends passes again with count 1 and a new window. |
| RateLimiterPostgres.SelectRows | lib/rate-limiter-postgres.ts:15-18 | The `SELECT` returns no row for an unknown user, and otherwise the user's one row. |
| RateLimiterPostgres.PlanCheck | lib/rate-limiter-postgres.ts:20-101 | Only the first result row is read, and the plan is the D1 plan for that row, or for none. The request is denied exactly when there is a live row whose count has reached five. An admitted request makes one write for the user, a denied one none. |
| RateLimiterPostgres.CheckAndUpdate | lib/rate-limiter-postgres.ts:9-102 | The same four branches as the D1 copy, each with the full decision. No row or an ended window gives count 1, a window ending one hour from now and 4 remaining. A full quota is denied with the stored count and window end, 0 remaining, and no write. Otherwise the count goes up by one, the window end is kept, and the remaining quota is five minus the new count. |
| RateLimiterPostgres.SameAsD1 | lib/rate-limiter-postgres.ts:9-102 | The Postgres limiter plans the same decision and writes as the D1 limiter for every table, user and time. |
| ImageUploader.JsSliceTo | components/ImageUploader.tsx:54 | `slice(0, end)` is a prefix of the list. Its length is `min(end, len)` for `end >= 0`, and `max(len + end, 0)` for a negative end. |
| ImageUploader.ScanTakesAccepted | components/ImageUploader.tsx:28-52 | The loop keeps the acceptable files in order. It stops after `max(1, room)` of them, because the room check runs only after a push. |
| ImageUploader.ScanErrorIsLastRejection | components/ImageUploader.tsx:28-52 | The message the loop leaves is that of the last file it rejected before stopping, or the starting message when it rejected none. |
| ImageUploader.LastRejectionNamesFile | components/ImageUploader.tsx:31-41 | The last rejection is the message of a rejected file that no other rejected file follows: "too large" for an oversized file, "only images" for a wrong type. With no rejected file it is the message shown before. |
| ImageUploader.ExaminedStopsWhenFull | components/ImageUploader.tsx:43-50 | The loop looks at every file when fewer acceptable files were chosen than fit. Otherwise it stops right after the acceptable file that fills the room, having taken exactly `max(1, room)` of them. |
| ImageUploader.HandleFileChange | components/ImageUploader.tsx:21-56 | With no file list, nothing changes. Otherwise the new list is the old list plus the first `max(1, room)` accepted files' data URLs, cut to `maxImages`. The error shown is the message of the last file rejected before the loop stopped, or empty. |
| ImageUploader.MergedList | components/ImageUploader.tsx:54 | The merged list never exceeds `maxImages`. It starts with the old images when they fit. Every image after them comes from an acceptable file. |
| ImageUploader.AcceptedComeFromAcceptableFiles | components/ImageUploader.tsx:31-47 | Every accepted data URL belongs to a selected file that is at most 10 MB and has an `image/` type. |
| ImageUploader.FullListTakesNothing | components/ImageUploader.tsx:49-54 | When no more images may be added, selecting files adds nothing to the list. |
| ImageUploader.KeepOtherPositionsSpec | components/ImageUploader.tsx:58-60 | Filtering out one position removes exactly that element when it exists, and keeps the list unchanged otherwise. |
| ImageUploader.RemoveImage | components/ImageUploader.tsx:58-60 | A valid index removes exactly that image: earlier images keep their places and later ones move up by one. An invalid index changes nothing. |
| ImageUploader.CanAddMore | components/ImageUploader.tsx:62 | More may be added exactly while the list is shorter than `maxImages`. `RoomMeansGrowth` and `FullListTakesNothing` state what follows from it. |
| ImageUploader.RoomMeansGrowth | components/ImageUploader.tsx:62 | While more images may be added, one acceptable file is appended to the list. |
| Middleware.IsPublic | middleware.ts:9 | A path is public exactly when it is `/login` or starts with `/api/auth`; `PublicPathsPass` and `PrefixExamples` state what passes because of it. |
| Middleware.Guard | middleware.ts:4-19 | A request is redirected to the login page exactly when its path is not public and it carries no session cookie. Public paths always pass. |
| Middleware.PublicPathsPass | middleware.ts:9-11 | `/login` and every path starting with `/api/auth` pass with or without a cookie. |
| Middleware.PrefixExamples | middleware.ts:9 | The public test is a bare prefix test: `/api/authx` passes, while `/` and `/api/generate` without a cookie are redirected. |
| Middleware.CookieValueIgnored | middleware.ts:14-18 | Any cookie value lets a request through; it is not checked. |
| Prompts.GetPromptForTransform | lib/prompts.ts:38-40 | Each transform type gets its own template, which opens with the professional-assistant sentence. |
| Prompts.TextIsLong | lib/prompts.ts:3-36 | Every template is longer than its opening sentence and begins with it. |
| Prompts.TemplatesDistinct | lib/prompts.ts:3-36 | Different transform types get different prompt texts. |
| Common.IndexOf | app/api/generate/route.ts:41 | Gives the first position where the text occurs. It finds none exactly when `includes` is false. |
| Common.Split | app/api/generate/route.ts:42 | `split` gives at least one piece, and at least two exactly when the separator occurs. |
| Common.SplitPiecesClean | app/api/generate/route.ts:42 | No piece produced by `split` contains the separator. |
| Common.JoinSplit | app/api/generate/route.ts:42 | Joining the pieces of `split` with the separator gives back the original text. |
| Common.OrNull | lib/db-postgres.ts:67-68 | `x \|\| null` is NULL exactly for an absent or empty string, and is the value otherwise. |
| GenerateRoute.ExtractPayload | app/api/generate/route.ts:41-43 | A URL without `base64,` is sent whole. Otherwise the payload sent contains no `base64,` of its own. |
| GenerateRoute.PayloadSegment | app/api/generate/route.ts:41-43 | The payload of a data URL is the text between the first `base64,` and the next one, or the end of the string. |
| GenerateRoute.DataUrlPayload | app/api/generate/route.ts:41-43 | For a header and data free of commas, the payload of `header + "base64," + data` is exactly `data`. |
| GenerateRoute.MimeType | app/api/generate/route.ts:45-50 | The type is PNG when the URL mentions `image/png`. Otherwise it is WebP when the URL mentions `image/webp`. Otherwise it is JPEG. |
| GenerateRoute.DeclaredTypeSent | app/api/generate/route.ts:45-50 | For a `data:image/<t>;base64,` URL with `t` one of png, webp and jpeg, the type sent is `image/<t>`, as long as the payload does not itself spell `image/png` or `image/webp`. |
| GenerateRoute.OtherTypesSentAsJpeg | app/api/generate/route.ts:45-50 | A `data:image/gif` URL is sent labelled `image/jpeg`: every type but PNG and WebP becomes JPEG. |
| GenerateRoute.PayloadCanMislabel | app/api/generate/route.ts:45-50 | The test reads the whole URL: a JPEG data URL whose payload spells `image/png` is labelled PNG. |
| GenerateRoute.ImagePart | app/api/generate/route.ts:40-58 | Each image becomes an inline part. A URL without `base64,` is sent whole, and otherwise the data holds no `base64,`. The type is PNG, WebP or JPEG. |
| GenerateRoute.ImagePartOfDataUrl | app/api/generate/route.ts:40-58 | A browser data URL for a PNG, WebP or JPEG file becomes a part with exactly its base64 payload and its declared type. |
| GenerateRoute.BuildContents | app/api/generate/route.ts:40-60 | The request has the prompt first, then one inline part per image in order, each with that image's payload and guessed type. |
| GenerateRoute.FirstInline | app/api/generate/route.ts:66-75 | Returns the data of the first part carrying an inline image, and nothing when no part carries one. |
| GenerateRoute.FirstCandidateImage | app/api/generate/route.ts:66-67 | There is an image exactly when there is a first candidate and one of its parts carries inline data. Only the first candidate is looked at. |
| GenerateRoute.ScanFirstCandidate | app/api/generate/route.ts:64-76 | The output is `data:image/png;base64,` followed by the first inline image of the first candidate, or empty when there is none. |
| GenerateRoute.PromptForTransformType | app/api/generate/route.ts:96-104 | A name in the route's table gets its prompt. Any other name gets `Transform this image.` The prompt is never empty. |
| GenerateRoute.ClientTypesMostlyMiss | app/api/generate/route.ts:96-104 | Of the four transform types the client sends, only `headshot` hits the route's table. The other three get the generic prompt. |
| GenerateRoute.RouteIgnoresTemplates | app/api/generate/route.ts:38 | For every transform type, the prompt sent to the model differs from that type's template. |
| GenerateRoute.Generate | app/api/generate/route.ts:16-94 | There are four outcomes. No user gives 401. A missing type or empty image list gives 400. An unreadable body, a model call that throws, or a failing `response.text()` when there is no inline image gives 500 with the error's message, or `Failed to generate image` when it is empty. A 200 happens only for a valid request. A 200 carries the first candidate's image when there is one, and the reply text otherwise. |
| GenerateRoute.RejectedBeforeModel | app/api/generate/route.ts:18-32 | A request rejected for auth, body or fields gets the same answer whatever the model would say, and it is never a 200. |
| Json.Serialize | lib/db.ts:43 | `JSON.stringify` of a list of strings is bracketed by `[` and `]`. |
| Json.Parse | lib/db.ts:79 | Parsing accepts only text that opens with `[`, and gives the empty list exactly for `[]`. |
| Json.ParseNeedsBrackets | lib/db.ts:79 | Text that parses both opens with `[` and closes with `]`. |
| Json.ParseSerialize | lib/db.ts:43-79 | `JSON.parse(JSON.stringify(xs))` gives back `xs` for every list of strings, including empty strings and strings with quotes, backslashes and control characters. |
| Json.SerializeInjective | lib/db.ts:43 | Different image lists are stored as different JSON texts. |
| Query.WhereCounts | lib/db.ts:63-64 | `WHERE` keeps every matching row as often as the table holds it, and no other row. |
| Query.SortDesc | lib/db.ts:65 | `ORDER BY … DESC` gives a permutation of its rows, sorted largest key first. |
| Query.SortKeepsTies | lib/db.ts:65 | Rows with equal keys keep their table order. |
| Query.SelectNewest | lib/db.ts:61-69 | `WHERE … ORDER BY … DESC LIMIT n` gives exactly `min(n, matches)` matching rows, sorted and drawn from the table, and all of them when there are at most `n`. No matching row left out is newer than a kept one. |
| Query.TakeKeepsNewest | lib/db.ts:66 | `LIMIT` on a sorted list keeps the largest keys: a row it drops has a key no larger than that of any row it keeps. |
| Db.FindByGoogleId | lib/db.ts:99-102 | Finds the first user row with that Google id. It finds none exactly when no row has it. |
| Db.UpdateByGoogleId | lib/db.ts:106-113 | Every row with the Google id gets the new email, name and image and keeps its id. Every other row is unchanged. |
| Db.CreateOrUpdateUser | lib/db.ts:89-131 | An absent name or image makes the D1 call fail. A known Google id updates that row and returns its id. An unknown one appends exactly one row under the fresh id, or fails when that id is taken. |
| Db.UpsertKeepsUnique | lib/db.ts:89-131 | Distinct user ids and distinct Google ids stay distinct after an upsert. |
| Db.UpsertTwice | lib/db.ts:98-116 | A second upsert of the same Google id returns the same user id, adds no row, and leaves exactly one row for that account. |
| Db.SaveGeneration | lib/db.ts:28-51 | The save fails exactly when the fresh id is taken. Otherwise it appends one row under that id, with the image list as JSON that parses back to the list, and NULL for a missing or empty prompt (`prompt \|\| null`). |
| Db.SelectGenerations | lib/db.ts:61-69 | Returns exactly `min(limit, n)` of the user's `n` rows, newest first, drawn from the table. A negative limit returns all of them. No row of the user left out is newer than a returned one. |
| Db.DecodeRows | lib/db.ts:75-83 | The mapping succeeds exactly when every row's image list parses. Each row then becomes one generation with the parsed images. |
| Db.ReadResults | lib/db.ts:71-83 | A missing result set gives an empty list; otherwise the rows are decoded. |
| Db.GetUserGenerations | lib/db.ts:56-84 | The result is the decoding of the newest-first selection, with a limit of 20 by default. So it lists at most that many generations, all the user's, newest first. |
| Db.SavedGenerationListed | lib/db.ts:28-84 | After a successful save, listing the user's generations with no row cap finds the new one, with its id and its image list. |
| DbPostgres.CreateOrUpdateUser | lib/db-postgres.ts:51-85 | Updates a known account or inserts a new one, like D1. A missing or empty name or image is stored as NULL on both paths. |
| DbPostgres.UpsertKeepsUnique | lib/db-postgres.ts:51-85 | Distinct user ids and distinct Google ids stay distinct after an upsert. |
| DbPostgres.UpsertSameAsD1 | lib/db-postgres.ts:51-85 | With a non-empty name and image, both drivers give the same table and the same id. |
| DbPostgres.UpsertDiffersOnFalsyName | lib/db-postgres.ts:74-81 | A missing name fails on D1 but stores NULL on Postgres. An empty name is stored as `""` on D1 but as NULL on Postgres. |
| DbPostgres.SaveGeneration | lib/db-postgres.ts:7-21 | The save succeeds exactly when the fresh id is free and returns that id. It appends one row with that id, the user, type and output image given, the image list as JSON that parses back to the list, and NULL for a missing or empty prompt. |
| DbPostgres.SavedGenerationListed | lib/db-postgres.ts:7-46 | After a successful save, listing the user's generations with a limit as large as the table finds the new one, with its id and its image list. |
| DbPostgres.GetUserGenerations | lib/db-postgres.ts:26-46 | Postgres rejects a negative `LIMIT`. Otherwise the result is the decoding of the newest-first selection, 20 by default, as on D1. |
| DbPostgres.ListSameAsD1 | lib/db-postgres.ts:26-46 | For a non-negative or absent limit, both drivers list the same generations. |
| HistoryRoute.ToSeconds | app/api/history/route.ts:78 | `Math.floor(ms / 1000)` is the whole second the instant falls in. |
| HistoryRoute.ToMillis | app/api/history/route.ts:37 | `seconds * 1000` is a whole number of seconds, and dividing by 1000 gives the seconds back. |
| HistoryRoute.DecimalString | app/api/history/route.ts:77 | `String(n)` is non-empty, starts with `-` exactly for a negative number, and has only digits after it. |
| HistoryRoute.MissingFields | app/api/history/route.ts:61 | The 400 check fires exactly when `transformType` or `outputImage` is absent or empty, or `inputImages` is absent. An empty list is truthy in JavaScript and passes. `HistoryRoute.Post` states the 400 answer it leads to. |
| HistoryRoute.StoredTimeRoundsDown | app/api/history/route.ts:78 | Storing in seconds and reading back in milliseconds rounds down to a whole second, and loses less than one second. |
| HistoryRoute.SecondsRoundTrip | app/api/history/route.ts:37 | A time in whole seconds survives the round trip through milliseconds. |
| HistoryRoute.DigitsRoundTrip | app/api/history/route.ts:77 | The decimal text of a non-negative clock reading reads back as that number. |
| HistoryRoute.IdsFollowClock | app/api/history/route.ts:77 | Two entry ids are equal exactly when the two clock readings are equal. |
| HistoryRoute.SelectHistory | app/api/history/route.ts:28-30 | Returns exactly `min(20, n)` of the user's `n` rows, newest first, drawn from the table, and all of them when there are at most 20. No row of the user left out is newer than a returned one. |
| HistoryRoute.DecodeRows | app/api/history/route.ts:32-38 | The mapping succeeds exactly when every row's image list parses. Each row becomes an item with the parsed images and its time in milliseconds. |
| HistoryRoute.Get | app/api/history/route.ts:11-47 | No user gives 401. No database gives 200 with an empty list. An unreadable row gives 500 with an empty list and the message. Otherwise the answer is 200 with at most 20 items, newest first. |
| HistoryRoute.Post | app/api/history/route.ts:50-105 | No user gives 401, a missing field gives 400, and no database gives 500. An unreadable body or a failing INSERT gives 500 with the error's message, or `Failed to save history` when it is empty. Nothing is written unless the answer is 200. A 200 happens exactly for a valid request with a database whose INSERT succeeds. It appends one row with the clock's decimal id, the list as JSON and the time in seconds. |
| HistoryRoute.SavedEntryListed | app/api/history/route.ts:28-89 | When the user has fewer than 20 entries, a saved entry shows up in the next `GET` under its id, with its images. Its time is the save time rounded down to a second. |

## Left out

- Session validation (`validateRequest`, OAuth with Google): the signed-in user is an input, `None` when there is no session.
- Obtaining the database (`getDB`, `process.env.DB`) and the mock database: the table is passed in, or is absent where the route checks for it.
- The image model call: a function from the request contents to a reply or a thrown error. A reply whose first candidate has no `content` is not modelled.
- `crypto.randomUUID()` and `Date.now()`: their values are parameters. Two history entries saved in the same millisecond get the same id. The schema of `image_history` is not part of this model, so whether such an insert fails is unknown: the INSERT's outcome is a parameter of `HistoryRoute.Post`.
- `Middleware.Guard`: the `config.matcher` of middleware.ts:21-23 is not modelled. Next.js never runs the middleware for `_next/static`, `_next/image` and `favicon.ico`, so those paths are served without a cookie; the model describes only the paths the middleware is run on.
- `DbPostgres.SaveGeneration`: the Postgres INSERT leaves `created_at` to the column's default. The model stores the clock parameter there, as it does for D1.
- Concurrency: the read-then-write sequences in the limiter and the upsert are modelled as atomic. Races between two requests are not.
- Console logging, React rendering, the upload widget's state hooks (the error shown is the last one set) and `FileReader`: each file carries its data URL.
- Dates: `toISOString()` and SQL timestamp text are not modelled. Times are integer milliseconds, or seconds in the history table.
- `Json.Parse`: only arrays of strings, written without whitespace, as `JSON.stringify` produces them. Lone surrogate escapes are rejected.
- Request bodies whose fields have the wrong JSON type (a number as `transformType`, an object as `images`): fields are absent or present strings and string lists.
- `GenerateRoute.PromptForTransformType`: looks up own keys only. A name such as `constructor`, which hits the object prototype in JavaScript, is not modelled.
- `Db.GetUserGenerations`: a fractional `limit` is not modelled (limits are integers). A negative one returns every row, as SQLite does.
- `Db.CreateOrUpdateUser`: an `undefined` bind is modelled as the D1 driver's `D1_TYPE_ERROR` failure, which is how that driver treats `undefined`.
- Ties in `ORDER BY created_at DESC` are kept in insertion order. SQL leaves that order unspecified.
- `HistoryRoute.Get`: a query result without `results` is not modelled. The rows are always present.
- Database failures other than a taken primary key and an unreadable image list (lost connections, constraint violations on other columns).

=== FILE: common.dfy ===
/** Shared vocabulary of the model: optional and fallible values, and the
    handful of JavaScript string operations the handlers rely on
    (`startsWith`, `includes`, `split`). */
module Common {

  /** A value that may be absent: `null`/`undefined` in the application. */
  datatype Option<+T> = None | Some(value: T)

  /** The outcome of an operation that may throw; `message` is the error's text. */
  datatype Result<+T> = Ok(value: T) | Err(message: string)

  /** JavaScript truthiness of an optional string: absent and "" are falsy. */
  predicate Truthy(o: Option<string>)
  {
    o.Some? && o.value != ""
  }

  /** `o || null` for an optional string: falsy values become absent. */
  function OrNull(o: Option<string>): (r: Option<string>)
    ensures r.None? <==> !Truthy(o)
    ensures r.Some? ==> r == o
  {
    if Truthy(o) then o else None
  }

  /** `error.message || fallback`: the error's text, or the fallback when it is empty. */
  function MessageOr(message: string, fallback: string): string
  {
    if message != "" then message else fallback
  }

  function Min(a: int, b: int): int { if a <= b then a else b }

  function Max(a: int, b: int): int { if a >= b then a else b }

  /** `s.startsWith(p)` */
  predicate StartsWith(s: string, p: string)
  {
    |p| <= |s| && s[..|p|] == p
  }

  /** `sub` occurs in `s` starting at index `i`. */
  predicate OccursAt(s: string, sub: string, i: int)
  {
    0 <= i && i + |sub| <= |s| && s[i..i + |sub|] == sub
  }

  /** `s.includes(sub)` */
  predicate Contains(s: string, sub: string)
  {
    exists i :: 0 <= i <= |s| - |sub| && OccursAt(s, sub, i)
  }

  /** Index of the first occurrence of `sub` in `s` at or after `from`
      (`s.indexOf(sub, from)`), if any. */
  function IndexFrom(s: string, sub: string, from: nat): (r: Option<nat>)
    ensures r.Some? ==> from <= r.value && OccursAt(s, sub, r.value)
    ensures r.Some? ==> forall j :: from <= j < r.value ==> !OccursAt(s, sub, j)
    ensures r.None? ==> forall j :: from <= j ==> !OccursAt(s, sub, j)
    decreases |s| - from
  {
    if from + |sub| > |s| then None
    else if OccursAt(s, sub, from) then Some(from)
    else IndexFrom(s, sub, from + 1)
  }

  /** Index of the first occurrence of `sub` in `s` (`s.indexOf(sub)`), if any. */
  function IndexOf(s: string, sub: string): (r: Option<nat>)
    ensures r.Some? ==> OccursAt(s, sub, r.value)
    ensures r.Some? ==> forall j :: 0 <= j < r.value ==> !OccursAt(s, sub, j)
    ensures r.None? <==> !Contains(s, sub)
  {
    IndexFrom(s, sub, 0)
  }

  /** The pieces of `s[from..]` split on `sep`. */
  function SplitFrom(s: string, sep: string, from: nat): (pieces: seq<string>)
    requires |sep| > 0 && from <= |s|
    ensures |pieces| >= 1
    ensures |pieces| >= 2 <==> IndexFrom(s, sep, from).Some?
    decreases |s| - from
  {
    match IndexFrom(s, sep, from)
    case None => [s[from..]]
    case Some(i) => [s[from..i]] + SplitFrom(s, sep, i + |sep|)
  }

  /** `s.split(sep)` for a non-empty separator: the pieces between
      successive non-overlapping occurrences, scanning left to right. */
  function Split(s: string, sep: string): (pieces: seq<string>)
    requires |sep| > 0
    ensures |pieces| >= 1
    ensures |pieces| >= 2 <==> Contains(s, sep)
  {
    SplitFrom(s, sep, 0)
  }

  /** A stretch `s[from..to]` free of occurrences that start inside it
      does not contain `sep`. */
  lemma StretchIsClean(s: string, sep: string, from: nat, to: nat)
    requires |sep| > 0 && from <= to <= |s|
    requires forall j :: from <= j < to ==> !OccursAt(s, sep, j)
    ensures !Contains(s[from..to], sep)
  {
    var piece := s[from..to];
    forall j | 0 <= j <= |piece| - |sep|
      ensures !OccursAt(piece, sep, j)
    {
      assert !OccursAt(s, sep, from + j);
      var a, b := piece[j..j + |sep|], s[from + j..from + j + |sep|];
      forall t | 0 <= t < |sep|
        ensures a[t] == b[t]
      {
        assert a[t] == piece[j + t] == s[from + j + t];
      }
      assert a == b;
    }
  }

  /** No piece of `s[from..]` contains the separator. */
  lemma {:induction false} SplitFromClean(s: string, sep: string, from: nat)
    requires |sep| > 0 && from <= |s|
    ensures forall k :: 0 <= k < |SplitFrom(s, sep, from)| ==> !Contains(SplitFrom(s, sep, from)[k], sep)
    decreases |s| - from
  {
    match IndexFrom(s, sep, from)
    case None =>
      StretchIsClean(s, sep, from, |s|);
      assert s[from..] == s[from..|s|];
    case Some(i) =>
      StretchIsClean(s, sep, from, i);
      SplitFromClean(s, sep, i + |sep|);
  }

  /** No piece of a split contains the separator. */
  lemma SplitPiecesClean(s: string, sep: string)
    requires |sep| > 0
    ensures forall k :: 0 <= k < |Split(s, sep)| ==> !Contains(Split(s, sep)[k], sep)
  {
    SplitFromClean(s, sep, 0);
  }

  /** `pieces.join(sep)` */
  function Join(pieces: seq<string>, sep: string): string
  {
    if |pieces| == 0 then ""
    else if |pieces| == 1 then pieces[0]
    else pieces[0] + sep + Join(pieces[1..], sep)
  }

  /** Re-joining the pieces of `s[from..]` gives back `s[from..]`. */
  lemma {:induction false} JoinSplitFrom(s: string, sep: string, from: nat)
    requires |sep| > 0 && from <= |s|
    ensures Join(SplitFrom(s, sep, from), sep) == s[from..]
    decreases |s| - from
  {
    match IndexFrom(s, sep, from)
    case None =>
    case Some(i) =>
      var rest := SplitFrom(s, sep, i + |sep|);
      JoinSplitFrom(s, sep, i + |sep|);
      assert SplitFrom(s, sep, from)[1..] == rest;
      assert s[i..i + |sep|] == sep;
      assert s[from..] == s[from..i] + s[i..i + |sep|] + s[i + |sep|..];
  }

  /** Splitting and re-joining on the same separator gives back the input. */
  lemma JoinSplit(s: string, sep: string)
    requires |sep| > 0
    ensures Join(Split(s, sep), sep) == s
  {
    JoinSplitFrom(s, sep, 0);
    assert s[0..] == s;
  }
}

=== FILE: db.dfy ===
/** The D1 store operations (lib/db.ts) over abstract tables: the user
    upsert keyed by `google_id`, appending a generation and listing a
    user's generations. A table is a sequence of rows in insertion order.
    The fresh id that `crypto.randomUUID()` would produce and the instant
    `CURRENT_TIMESTAMP` fills into `created_at` are parameters. */
module Db {
  import opened Common
  import Json
  import Query

  /** A row of `users`: `id` is the primary key, `google_id` is UNIQUE. */
  datatype UserRow = UserRow(id: string, googleId: string, email: string,
                             name: Option<string>, image: Option<string>)

  /** The argument of `createOrUpdateUser`; `name` and `image` may be left out. */
  datatype UserData = UserData(googleId: string, email: string,
                               name: Option<string>, image: Option<string>)

  /** A row of `generations`; `input_images` holds JSON text. */
  datatype GenerationRow = GenerationRow(id: string, userId: string, transformType: string,
                                         inputImages: string, outputImage: string,
                                         promptUsed: Option<string>, createdAt: int)

  /** What `saveGeneration` is given (a `Generation` without id and time). */
  datatype NewGeneration = NewGeneration(userId: string, transformType: string,
                                         inputImages: seq<string>, outputImage: string,
                                         promptUsed: Option<string>)

  /** A `Generation` as the list operation returns it. */
  datatype Generation = Generation(id: string, userId: string, transformType: string,
                                   inputImages: seq<string>, outputImage: string,
                                   promptUsed: Option<string>, createdAt: int)

  /** Default of the `limit` parameter of `getUserGenerations`. */
  const DefaultLimit: int := 20

  /** D1 refuses to bind `undefined`: the statement throws before it runs. */
  const UndefinedBindError: string := "D1_TYPE_ERROR: Type 'undefined' not supported for value 'undefined'"
  const DuplicateKeyError: string := "UNIQUE constraint failed"
  const ParseError: string := "SyntaxError: invalid JSON"

  /** The table constraints: ids and Google ids are each unique. */
  predicate UniqueUsers(users: seq<UserRow>)
  {
    forall i, j :: 0 <= i < j < |users| ==>
      users[i].id != users[j].id && users[i].googleId != users[j].googleId
  }

  predicate HasUserId(users: seq<UserRow>, id: string)
  {
    exists k :: 0 <= k < |users| && users[k].id == id
  }

  /** `SELECT id FROM users WHERE google_id = ?` then `.first()`: the
      position of the first matching row. */
  function FindByGoogleId(users: seq<UserRow>, googleId: string): (r: Option<nat>)
    ensures r.Some? ==> r.value < |users| && users[r.value].googleId == googleId
    ensures r.Some? ==> forall j :: 0 <= j < r.value ==> users[j].googleId != googleId
    ensures r.None? <==> forall j :: 0 <= j < |users| ==> users[j].googleId != googleId
    decreases |users|
  {
    if |users| == 0 then None
    else if users[0].googleId == googleId then Some(0)
    else
      match FindByGoogleId(users[1..], googleId)
      case None => None
      case Some(k) => Some(k + 1)
  }

  /** `UPDATE users SET email = ?, name = ?, image = ? WHERE google_id = ?` */
  function UpdateByGoogleId(users: seq<UserRow>, googleId: string, email: string,
                            name: Option<string>, image: Option<string>): (r: seq<UserRow>)
    ensures |r| == |users|
    ensures forall k :: 0 <= k < |users| && users[k].googleId == googleId ==>
              r[k] == UserRow(users[k].id, googleId, email, name, image)
    ensures forall k :: 0 <= k < |users| && users[k].googleId != googleId ==> r[k] == users[k]
  {
    seq(|users|, k requires 0 <= k < |users| =>
      if users[k].googleId == googleId then users[k].(email := email, name := name, image := image)
      else users[k])
  }

  /** `createOrUpdateUser(db, userData)`: the table afterwards and the id
      returned. `freshId` is what `crypto.randomUUID()` yields. */
  function CreateOrUpdateUser(users: seq<UserRow>, freshId: string, data: UserData)
    : (r: Result<(seq<UserRow>, string)>)
    // An absent name or image reaches `bind` as `undefined`.
    ensures (data.name.None? || data.image.None?) ==> r == Err(UndefinedBindError)
    // Existing Google id: its row gets the new email, name and image and its id is returned.
    ensures data.name.Some? && data.image.Some? && FindByGoogleId(users, data.googleId).Some? ==>
              var k := FindByGoogleId(users, data.googleId).value;
              r == Ok((UpdateByGoogleId(users, data.googleId, data.email, data.name, data.image),
                       users[k].id))
    // New Google id: exactly one row appended under the fresh id, unless that id is taken.
    ensures data.name.Some? && data.image.Some? && FindByGoogleId(users, data.googleId).None? ==>
              if HasUserId(users, freshId) then r == Err(DuplicateKeyError)
              else r == Ok((users + [UserRow(freshId, data.googleId, data.email, data.name, data.image)],
                            freshId))
  {
    if data.name.None? || data.image.None? then Err(UndefinedBindError)
    else
      match FindByGoogleId(users, data.googleId)
      case Some(k) =>
        Ok((UpdateByGoogleId(users, data.googleId, data.email, data.name, data.image), users[k].id))
      case None =>
        if HasUserId(users, freshId) then Err(DuplicateKeyError)
        else Ok((users + [UserRow(freshId, data.googleId, data.email, data.name, data.image)], freshId))
  }

  /** The upsert keeps the table's constraints. */
  lemma UpsertKeepsUnique(users: seq<UserRow>, freshId: string, data: UserData)
    requires UniqueUsers(users)
    ensures CreateOrUpdateUser(users, freshId, data).Ok? ==>
              UniqueUsers(CreateOrUpdateUser(users, freshId, data).value.0)
  {
  }

  /** Rows with Google id `g`. */
  function RowsWithGoogleId(users: seq<UserRow>, g: string): seq<UserRow>
  {
    Query.Where(users, (row: UserRow) => row.googleId == g)
  }

  /** In a table that keeps its constraints each Google id has at most one row. */
  lemma {:induction false} AtMostOneRowPerGoogleId(users: seq<UserRow>, g: string)
    requires UniqueUsers(users)
    ensures |RowsWithGoogleId(users, g)| <= 1
    decreases |users|
  {
    if |users| > 0 {
      assert UniqueUsers(users[1..]);
      AtMostOneRowPerGoogleId(users[1..], g);
      if users[0].googleId == g {
        assert forall j :: 0 <= j < |users[1..]| ==> users[1..][j].googleId != g;
        NoneWithGoogleId(users[1..], g);
      }
    }
  }

  /** No row carries `g`, so none is selected. */
  lemma {:induction false} NoneWithGoogleId(users: seq<UserRow>, g: string)
    requires forall j :: 0 <= j < |users| ==> users[j].googleId != g
    ensures RowsWithGoogleId(users, g) == []
    decreases |users|
  {
    if |users| > 0 {
      NoneWithGoogleId(users[1..], g);
    }
  }

  /** Signing in twice with the same Google account returns the same id
      both times, whatever fresh id the second call would have used, and
      the account still has exactly one row. */
  lemma UpsertTwice(users: seq<UserRow>, id1: string, id2: string, d1: UserData, d2: UserData)
    requires UniqueUsers(users)
    requires d1.googleId == d2.googleId
    requires CreateOrUpdateUser(users, id1, d1).Ok?
    requires CreateOrUpdateUser(CreateOrUpdateUser(users, id1, d1).value.0, id2, d2).Ok?
    ensures var (after1, first) := CreateOrUpdateUser(users, id1, d1).value;
            var (after2, second) := CreateOrUpdateUser(after1, id2, d2).value;
            && second == first
            && |after2| == |after1|
            && |RowsWithGoogleId(after2, d1.googleId)| == 1
  {
    var (after1, first) := CreateOrUpdateUser(users, id1, d1).value;
    var k := FindByGoogleId(after1, d1.googleId);
    if FindByGoogleId(users, d1.googleId).None? {
      assert after1[|users|].googleId == d1.googleId;
    }
    var (after2, second) := CreateOrUpdateUser(after1, id2, d2).value;
    UpsertKeepsUnique(users, id1, d1);
    UpsertKeepsUnique(after1, id2, d2);
    AtMostOneRowPerGoogleId(after2, d1.googleId);
    var j := FindByGoogleId(after2, d1.googleId).value;
    OneRowFound(after2, d1.googleId, j);
  }

  /** A row that is found makes the matching rows non-empty. */
  lemma {:induction false} OneRowFound(users: seq<UserRow>, g: string, j: nat)
    requires j < |users| && users[j].googleId == g
    ensures |RowsWithGoogleId(users, g)| >= 1
    decreases |users|
  {
    if j > 0 {
      OneRowFound(users[1..], g, j - 1);
    }
  }

  predicate HasGenerationId(table: seq<GenerationRow>, id: string)
  {
    exists k :: 0 <= k < |table| && table[k].id == id
  }

  /** `saveGeneration(db, generation)`: the table afterwards and the id
      returned; the prompt is bound as `promptUsed || null`. `freshId` is the UUID drawn, `now` the insertion instant. */
  function SaveGeneration(table: seq<GenerationRow>, freshId: string, now: int, g: NewGeneration)
    : (r: Result<(seq<GenerationRow>, string)>)
    ensures HasGenerationId(table, freshId) <==> r.Err?
    ensures r.Ok? ==> r.value.1 == freshId
    ensures r.Ok? ==> |r.value.0| == |table| + 1 && r.value.0[..|table|] == table
    ensures r.Ok? ==>
              var row := r.value.0[|table|];
              && row.id == freshId && row.userId == g.userId
              && row.transformType == g.transformType && row.outputImage == g.outputImage
              && row.createdAt == now
              && Json.Parse(row.inputImages) == Some(g.inputImages)
              && row.promptUsed == OrNull(g.promptUsed)
  {
    if HasGenerationId(table, freshId) then Err(DuplicateKeyError)
    else
      Json.ParseSerialize(g.inputImages);
      var row := GenerationRow(freshId, g.userId, g.transformType, Json.Serialize(g.inputImages),
                               g.outputImage, OrNull(g.promptUsed), now);
      assert (table + [row])[..|table|] == table;
      Ok((table + [row], freshId))
  }

  function CreatedAt(row: GenerationRow): int { row.createdAt }

  /** The rows of one user. */
  function OfUser(userId: string): GenerationRow -> bool
  {
    (row: GenerationRow) => row.userId == userId
  }

  /** `SELECT * FROM generations WHERE user_id = ? ORDER BY created_at DESC LIMIT ?`
      with SQLite's reading of `LIMIT`: a negative limit means no limit. */
  function SelectGenerations(table: seq<GenerationRow>, userId: string, limit: int)
    : (rows: seq<GenerationRow>)
    ensures var mine := Query.Where(table, OfUser(userId));
            |rows| == if 0 <= limit < |mine| then limit else |mine|
    ensures forall k :: 0 <= k < |rows| ==> rows[k].userId == userId
    ensures Query.SortedDesc(rows, CreatedAt)
    ensures multiset(rows) <= multiset(Query.Where(table, OfUser(userId))) <= multiset(table)
    ensures limit < 0 ==> multiset(rows) == multiset(Query.Where(table, OfUser(userId)))
    // The newest rows: a row of the user left out is never newer than one kept.
    ensures forall x :: multiset(rows)[x] < multiset(Query.Where(table, OfUser(userId)))[x] ==>
              forall y :: y in rows ==> y.createdAt >= x.createdAt
  {
    Query.SelectNewest(table, OfUser(userId), CreatedAt, if limit < 0 then |table| else limit)
  }

  /** The list entry made of one row, with its parsed image list. */
  function ToGeneration(row: GenerationRow, inputImages: seq<string>): Generation
  {
    Generation(row.id, row.userId, row.transformType, inputImages, row.outputImage,
               row.promptUsed, row.createdAt)
  }

  /** `results.map(row => ({ …, inputImages: JSON.parse(row.input_images), … }))`;
      the first row whose JSON does not parse makes the call throw. */
  function DecodeRows(rows: seq<GenerationRow>): (r: Result<seq<Generation>>)
    ensures r.Ok? <==> forall k :: 0 <= k < |rows| ==> Json.Parse(rows[k].inputImages).Some?
    ensures r.Ok? ==> |r.value| == |rows|
    ensures r.Ok? ==> forall k :: 0 <= k < |rows| ==>
                        r.value[k] == ToGeneration(rows[k], Json.Parse(rows[k].inputImages).value)
    decreases |rows|
  {
    if |rows| == 0 then Ok([])
    else
      match Json.Parse(rows[0].inputImages)
      case None => Err(ParseError)
      case Some(images) =>
        match DecodeRows(rows[1..])
        case Err(m) =>
          var k :| 0 <= k < |rows[1..]| && Json.Parse(rows[1..][k].inputImages).None?;
          assert rows[k + 1] == rows[1..][k];
          Err(m)
        case Ok(rest) =>
          assert forall k :: 1 <= k < |rows| ==> rows[k] == rows[1..][k - 1];
          Ok([ToGeneration(rows[0], images)] + rest)
  }

  /** After the query: `if (!result.results) return []`, else decode every row. */
  function ReadResults(results: Option<seq<GenerationRow>>): (r: Result<seq<Generation>>)
    ensures results.None? ==> r == Ok([])
    ensures results.Some? ==> r == DecodeRows(results.value)
  {
    if results.None? then Ok([]) else DecodeRows(results.value)
  }

  /** Decoding keeps each row's owner and time, and so the order of the rows. */
  lemma DecodeKeepsOrder(rows: seq<GenerationRow>, userId: string)
    requires Query.SortedDesc(rows, CreatedAt)
    requires forall k :: 0 <= k < |rows| ==> rows[k].userId == userId
    ensures DecodeRows(rows).Ok? ==>
              var gs := DecodeRows(rows).value;
              && (forall k :: 0 <= k < |gs| ==> gs[k].userId == userId)
              && (forall i, j :: 0 <= i < j < |gs| ==> gs[i].createdAt >= gs[j].createdAt)
  {
    if DecodeRows(rows).Ok? {
      var gs := DecodeRows(rows).value;
      assert forall k :: 0 <= k < |gs| ==> gs[k].createdAt == CreatedAt(rows[k]);
    }
  }

  /** The decoded selection has at most `n` entries for a non-negative `n`,
      all of the user, newest first. */
  lemma ListedFacts(table: seq<GenerationRow>, userId: string, n: int)
    ensures var r := DecodeRows(SelectGenerations(table, userId, n));
            r.Ok? ==>
              && (n >= 0 ==> |r.value| <= n)
              && (forall k :: 0 <= k < |r.value| ==> r.value[k].userId == userId)
              && (forall i, j :: 0 <= i < j < |r.value| ==> r.value[i].createdAt >= r.value[j].createdAt)
  {
    DecodeKeepsOrder(SelectGenerations(table, userId, n), userId);
  }

  /** `getUserGenerations(db, userId, limit)`; an absent `limit` is 20. */
  function GetUserGenerations(table: seq<GenerationRow>, userId: string, limit: Option<int>)
    : (r: Result<seq<Generation>>)
    ensures r.Ok? && limit.None? ==> |r.value| <= DefaultLimit
    ensures r.Ok? && limit.Some? && limit.value >= 0 ==> |r.value| <= limit.value
    ensures r.Ok? ==> forall k :: 0 <= k < |r.value| ==> r.value[k].userId == userId
    ensures r.Ok? ==> forall i, j :: 0 <= i < j < |r.value| ==>
                        r.value[i].createdAt >= r.value[j].createdAt
    // The list is the selected rows (the newest `limit`, or 20, of the
    // user's), each decoded with its parsed image list.
    ensures r == DecodeRows(SelectGenerations(table, userId,
                                              if limit.Some? then limit.value else DefaultLimit))
  {
    var n := if limit.Some? then limit.value else DefaultLimit;
    var rows := SelectGenerations(table, userId, n);
    ListedFacts(table, userId, n);
    var r := ReadResults(Some(rows));
    assert r == DecodeRows(rows);
    r
  }

  /** Every row of the user is selected when there is no limit. */
  lemma UnlimitedSelectHasRow(table: seq<GenerationRow>, row: GenerationRow)
    requires row in table
    ensures row in SelectGenerations(table, row.userId, -1)
  {
    Query.WhereCounts(table, OfUser(row.userId));
    assert row in multiset(Query.Where(table, OfUser(row.userId)));
  }

  /** Selected rows come from the table. */
  lemma SelectedRowsFromTable(table: seq<GenerationRow>, userId: string, limit: int)
    ensures forall r :: r in SelectGenerations(table, userId, limit) ==> r in table
  {
    var rows := SelectGenerations(table, userId, limit);
    forall r | r in rows
      ensures r in table
    {
      assert r in multiset(rows);
    }
  }

  /** Any row of a table whose JSON all parses is listed, with its images,
      when the list is unbounded. */
  lemma RowListed(table: seq<GenerationRow>, row: GenerationRow, images: seq<string>)
    requires row in table && Json.Parse(row.inputImages) == Some(images)
    requires forall k :: 0 <= k < |table| ==> Json.Parse(table[k].inputImages).Some?
    ensures var listed := GetUserGenerations(table, row.userId, Some(-1));
            && listed.Ok?
            && exists k :: 0 <= k < |listed.value| && listed.value[k].id == row.id &&
                           listed.value[k].inputImages == images
  {
    var rows := SelectGenerations(table, row.userId, -1);
    assert forall r :: r in table ==> Json.Parse(r.inputImages).Some?;
    SelectedRowsFromTable(table, row.userId, -1);
    UnlimitedSelectHasRow(table, row);
    var k :| 0 <= k < |rows| && rows[k] == row;
    var listed := DecodeRows(rows);
    assert listed.Ok?;
    assert GetUserGenerations(table, row.userId, Some(-1)) == listed;
    assert listed.value[k].id == row.id && listed.value[k].inputImages == images;
  }

  /** A generation saved for a user is among that user's listed
      generations while the list is unbounded, and its image list reads
      back exactly as it was given. */
  lemma SavedGenerationListed(table: seq<GenerationRow>, freshId: string, now: int,
                              g: NewGeneration)
    requires forall k :: 0 <= k < |table| ==> Json.Parse(table[k].inputImages).Some?
    requires SaveGeneration(table, freshId, now, g).Ok?
    ensures var after := SaveGeneration(table, freshId, now, g).value.0;
            var listed := GetUserGenerations(after, g.userId, Some(-1));
            && listed.Ok?
            && exists k :: 0 <= k < |listed.value| && listed.value[k].id == freshId &&
                           listed.value[k].inputImages == g.inputImages
  {
    var after := SaveGeneration(table, freshId, now, g).value.0;
    var row := after[|table|];
    assert forall k :: 0 <= k < |after| ==> Json.Parse(after[k].inputImages).Some? by {
      assert after == table + [row];
    }
    RowListed(after, row, g.inputImages);
  }
}

=== FILE: db_postgres.dfy ===
/** The Postgres store operations (lib/db-postgres.ts) over the same
    abstract tables as the D1 copy. They differ from it in three ways:
    a missing or empty name or image is written as NULL (`|| null`), the
    query result always carries its rows, and Postgres rejects a negative
    `LIMIT` where SQLite reads it as no limit. */
module DbPostgres {
  import opened Common
  import Db
  import Json

  const NegativeLimitError: string := "LIMIT must not be negative"

  /** `createOrUpdateUser(userData)` */
  function CreateOrUpdateUser(users: seq<Db.UserRow>, freshId: string, data: Db.UserData)
    : (r: Result<(seq<Db.UserRow>, string)>)
    // Existing Google id: that row is updated and its id returned.
    ensures Db.FindByGoogleId(users, data.googleId).Some? ==>
              var k := Db.FindByGoogleId(users, data.googleId).value;
              r == Ok((Db.UpdateByGoogleId(users, data.googleId, data.email,
                                           OrNull(data.name), OrNull(data.image)),
                       users[k].id))
    // New Google id: one row appended under the fresh id, unless that id is taken.
    ensures Db.FindByGoogleId(users, data.googleId).None? ==>
              if Db.HasUserId(users, freshId) then r == Err(Db.DuplicateKeyError)
              else r == Ok((users + [Db.UserRow(freshId, data.googleId, data.email,
                                                OrNull(data.name), OrNull(data.image))],
                            freshId))
    // On either path the account's row holds NULL for a missing or empty
    // name or image, never an empty string.
    ensures r.Ok? ==> forall k :: 0 <= k < |r.value.0| && r.value.0[k].googleId == data.googleId ==>
              r.value.0[k].name == OrNull(data.name) && r.value.0[k].image == OrNull(data.image)
  {
    var name := OrNull(data.name);
    var image := OrNull(data.image);
    match Db.FindByGoogleId(users, data.googleId)
    case Some(k) =>
      Ok((Db.UpdateByGoogleId(users, data.googleId, data.email, name, image), users[k].id))
    case None =>
      if Db.HasUserId(users, freshId) then Err(Db.DuplicateKeyError)
      else Ok((users + [Db.UserRow(freshId, data.googleId, data.email, name, image)], freshId))
  }

  /** The Postgres upsert keeps the table's constraints too. */
  lemma UpsertKeepsUnique(users: seq<Db.UserRow>, freshId: string, data: Db.UserData)
    requires Db.UniqueUsers(users)
    ensures CreateOrUpdateUser(users, freshId, data).Ok? ==>
              Db.UniqueUsers(CreateOrUpdateUser(users, freshId, data).value.0)
  {
  }

  /** With a non-empty name and image both copies do the same. */
  lemma UpsertSameAsD1(users: seq<Db.UserRow>, freshId: string, data: Db.UserData)
    requires Truthy(data.name) && Truthy(data.image)
    ensures CreateOrUpdateUser(users, freshId, data) == Db.CreateOrUpdateUser(users, freshId, data)
  {
  }

  /** They part ways on a missing or empty name: D1 throws on the missing
      one and stores the empty one as it is, Postgres stores NULL for both. */
  lemma UpsertDiffersOnFalsyName(users: seq<Db.UserRow>, freshId: string, googleId: string,
                                 email: string, image: string)
    requires Db.FindByGoogleId(users, googleId).None? && !Db.HasUserId(users, freshId)
    ensures var missing := Db.UserData(googleId, email, None, Some(image));
            && Db.CreateOrUpdateUser(users, freshId, missing).Err?
            && CreateOrUpdateUser(users, freshId, missing).Ok?
            && CreateOrUpdateUser(users, freshId, missing).value.0[|users|].name.None?
    ensures var empty := Db.UserData(googleId, email, Some(""), Some(image));
            && Db.CreateOrUpdateUser(users, freshId, empty).value.0[|users|].name == Some("")
            && CreateOrUpdateUser(users, freshId, empty).value.0[|users|].name.None?
  {
  }

  /** `saveGeneration(generation)`: the same INSERT as the D1 copy, with
      the prompt bound as `promptUsed || null`. */
  function SaveGeneration(table: seq<Db.GenerationRow>, freshId: string, now: int,
                          g: Db.NewGeneration): (r: Result<(seq<Db.GenerationRow>, string)>)
    ensures r.Ok? <==> !Db.HasGenerationId(table, freshId)
    ensures r.Ok? ==> r.value.1 == freshId
    ensures r.Ok? ==> |r.value.0| == |table| + 1 && r.value.0[..|table|] == table
    ensures r.Ok? ==>
              var row := r.value.0[|table|];
              && row.id == freshId && row.userId == g.userId
              && row.transformType == g.transformType && row.outputImage == g.outputImage
              && row.createdAt == now
              && Json.Parse(row.inputImages) == Some(g.inputImages)
              && row.promptUsed == OrNull(g.promptUsed)
  {
    Db.SaveGeneration(table, freshId, now, g)
  }

  /** `getUserGenerations(userId, limit)`; an absent `limit` is 20. */
  function GetUserGenerations(table: seq<Db.GenerationRow>, userId: string, limit: Option<int>)
    : (r: Result<seq<Db.Generation>>)
    ensures limit.Some? && limit.value < 0 ==> r == Err(NegativeLimitError)
    ensures r.Ok? ==> |r.value| <= if limit.Some? then limit.value else Db.DefaultLimit
    ensures r.Ok? ==> forall k :: 0 <= k < |r.value| ==> r.value[k].userId == userId
    ensures r.Ok? ==> forall i, j :: 0 <= i < j < |r.value| ==>
                        r.value[i].createdAt >= r.value[j].createdAt
    // For an accepted limit: the selected rows (the newest `limit`, or 20,
    // of the user's), each decoded with its parsed image list.
    ensures var n := if limit.Some? then limit.value else Db.DefaultLimit;
            n >= 0 ==> r == Db.DecodeRows(Db.SelectGenerations(table, userId, n))
  {
    var n := if limit.Some? then limit.value else Db.DefaultLimit;
    if n < 0 then Err(NegativeLimitError)
    else
      Db.ListedFacts(table, userId, n);
      Db.DecodeRows(Db.SelectGenerations(table, userId, n))
  }

  /** A saved generation is listed for its user when the limit covers the
      whole table, with its image list read back as it was given. */
  lemma SavedGenerationListed(table: seq<Db.GenerationRow>, freshId: string, now: int,
                              g: Db.NewGeneration)
    requires forall k :: 0 <= k < |table| ==> Json.Parse(table[k].inputImages).Some?
    requires SaveGeneration(table, freshId, now, g).Ok?
    ensures var after := SaveGeneration(table, freshId, now, g).value.0;
            var listed := GetUserGenerations(after, g.userId, Some(|after|));
            && listed.Ok?
            && exists k :: 0 <= k < |listed.value| && listed.value[k].id == freshId &&
                           listed.value[k].inputImages == g.inputImages
  {
    var after := SaveGeneration(table, freshId, now, g).value.0;
    assert Db.SelectGenerations(after, g.userId, |after|) == Db.SelectGenerations(after, g.userId, -1);
    Db.SavedGenerationListed(table, freshId, now, g);
  }

  /** For every limit Postgres accepts, the list is the D1 one. */
  lemma ListSameAsD1(table: seq<Db.GenerationRow>, userId: string, limit: Option<int>)
    requires limit.None? || limit.value >= 0
    ensures GetUserGenerations(table, userId, limit) == Db.GetUserGenerations(table, userId, limit)
  {
  }
}

=== FILE: generate_route.dfy ===
/** The image generation endpoint (app/api/generate/route.ts): request
    checks, how each uploaded data URL becomes an inline image part, which
    part of the model's answer becomes the result, and the route's own
    prompt table. The generative model is a function parameter. */
module GenerateRoute {
  import opened Common
  import Prompts

  /** The separator between a data URL's header and its payload. */
  const Marker: string := "base64,"
  /** Put in front of the model's inline image data in the answer. */
  const PngDataUrlPrefix: string := "data:image/png;base64,"
  const DefaultPrompt: string := "Transform this image."

  /** One entry of the content list sent to the model. */
  datatype Content = TextPart(text: string) | InlineData(data: string, mimeType: string)

  /** One part of a model candidate; only its `inlineData` is looked at. */
  datatype Part = Part(inlineData: Option<Blob>)
  datatype Blob = Blob(data: string, mimeType: string)
  datatype Candidate = Candidate(parts: seq<Part>)

  /** What the model call yields: candidates (absent when the field is
      missing) and the outcome of `response.text()`, or a thrown error. */
  datatype ModelReply =
    | Reply(candidates: Option<seq<Candidate>>, text: Result<string>)
    | Thrown(message: string)

  /** The JSON request body; `Malformed` when `request.json()` throws. */
  datatype Body =
    | Malformed(message: string)
    | Body(transformType: Option<string>, images: Option<seq<string>>)

  datatype Payload = ErrorBody(error: string) | ResultBody(result: string)
  datatype Response = Response(status: int, payload: Payload)

  /** Payload of an uploaded image string: the text after the first
      `base64,` up to the next one (`img.split('base64,')[1]`), or the whole
      string when there is no marker. */
  function ExtractPayload(img: string): (p: string)
    ensures !Contains(img, Marker) ==> p == img
    ensures Contains(img, Marker) ==> !Contains(p, Marker)
  {
    if Contains(img, Marker) then
      SplitPiecesClean(img, Marker);
      Split(img, Marker)[1]
    else img
  }

  /** When `sep` occurs in `s`, the second piece of the split is the
      segment between its first occurrence (at `i`) and the next one (at
      `k`) or the end. */
  lemma SecondPiece(s: string, sep: string) returns (i: nat, k: nat)
    requires |sep| > 0 && Contains(s, sep)
    ensures OccursAt(s, sep, i)
    ensures forall j :: 0 <= j < i ==> !OccursAt(s, sep, j)
    ensures i + |sep| <= k <= |s|
    ensures Split(s, sep)[1] == s[i + |sep|..k]
    ensures k == |s| || OccursAt(s, sep, k)
  {
    i := IndexOf(s, sep).value;
    var next := IndexFrom(s, sep, i + |sep|);
    var rest := SplitFrom(s, sep, i + |sep|);
    assert IndexFrom(s, sep, 0) == Some(i);
    assert SplitFrom(s, sep, 0) == [s[0..i]] + rest;
    if next.Some? {
      k := next.value;
      assert rest[0] == s[i + |sep|..k];
    } else {
      k := |s|;
      assert rest == [s[i + |sep|..]];
    }
  }

  /** When the marker is present the payload is the segment between its
      first occurrence (at `i`) and the next one (at `k`) or the end. */
  lemma PayloadSegment(img: string) returns (i: nat, k: nat)
    requires Contains(img, Marker)
    ensures OccursAt(img, Marker, i)
    ensures forall j :: 0 <= j < i ==> !OccursAt(img, Marker, j)
    ensures i + |Marker| <= k <= |img|
    ensures ExtractPayload(img) == img[i + |Marker|..k]
    ensures k == |img| || OccursAt(img, Marker, k)
  {
    i, k := SecondPiece(img, Marker);
  }

  /** A string lacking some character of `sub` does not contain `sub`. */
  lemma MissingCharNoMatch(s: string, sub: string, t: nat)
    requires t < |sub| && sub[t] !in s
    ensures !Contains(s, sub)
  {
    forall j | 0 <= j <= |s| - |sub|
      ensures !OccursAt(s, sub, j)
    {
      assert s[j + t] in s;
      assert s[j..j + |sub|][t] == s[j + t];
    }
  }

  /** A string without commas cannot contain the marker, whose last character is one. */
  lemma NoCommaNoMarker(s: string)
    requires forall c :: c in s ==> c != ','
    ensures !Contains(s, Marker)
  {
    assert Marker[6] == ',';
    MissingCharNoMatch(s, Marker, 6);
  }

  /** In `header + Marker + data` with comma-free header and data, the
      marker occurs exactly once: right after the header. */
  lemma OnlyMarkerAfterHeader(header: string, data: string, p: int)
    requires forall c :: c in header ==> c != ','
    requires forall c :: c in data ==> c != ','
    requires p != |header|
    ensures !OccursAt(header + Marker + data, Marker, p)
  {
    var img := header + Marker + data;
    if 0 <= p && p + |Marker| <= |img| {
      assert img[p..p + |Marker|][6] == img[p + 6];
      if p + 6 < |header| {
        assert img[p + 6] == header[p + 6];
        assert header[p + 6] in header;
      } else if p + 6 < |header| + |Marker| {
        assert img[p + 6] == Marker[p + 6 - |header|];
      } else {
        assert img[p + 6] == data[p + 6 - |header| - |Marker|];
        assert data[p + 6 - |header| - |Marker|] in data;
      }
    }
  }

  /** Round trip with the browser's encoding: a data URL made of a
      comma-free header, the marker and a comma-free payload (base64 text
      has no commas) gives back exactly that payload. */
  lemma DataUrlPayload(header: string, data: string)
    requires forall c :: c in header ==> c != ','
    requires forall c :: c in data ==> c != ','
    ensures ExtractPayload(header + Marker + data) == data
  {
    var img := header + Marker + data;
    assert OccursAt(img, Marker, |header|);
    var i, k := PayloadSegment(img);
    if i != |header| {
      OnlyMarkerAfterHeader(header, data, i);
    }
    if k != |img| {
      OnlyMarkerAfterHeader(header, data, k);
    }
    assert img[|header| + |Marker|..] == data;
  }

  /** The MIME type sent with an image: png if the string mentions
      `image/png` anywhere, else webp if it mentions `image/webp`, else jpeg. */
  function MimeType(img: string): (m: string)
    ensures m in {"image/png", "image/webp", "image/jpeg"}
    ensures m == "image/png" <==> Contains(img, "image/png")
    ensures m == "image/webp" <==> !Contains(img, "image/png") && Contains(img, "image/webp")
  {
    if Contains(img, "image/png") then "image/png"
    else if Contains(img, "image/webp") then "image/webp"
    else "image/jpeg"
  }

  /** A text that ends in a comma, followed by any text: `sub`, which has
      no comma, can only occur inside one of the two. */
  lemma {:induction false} NoneAcrossComma(h: string, payload: string, sub: string)
    requires |h| > 0 && h[|h| - 1] == ','
    requires forall k :: 0 <= k < |sub| ==> sub[k] != ','
    requires !Contains(h, sub) && !Contains(payload, sub)
    ensures !Contains(h + payload, sub)
  {
    var img := h + payload;
    forall i | 0 <= i <= |img| - |sub|
      ensures !OccursAt(img, sub, i)
    {
      if i >= |h| {
        assert !OccursAt(payload, sub, i - |h|);
        assert payload[i - |h|..i - |h| + |sub|] == img[i..i + |sub|];
      } else if i + |sub| <= |h| {
        assert !OccursAt(h, sub, i);
        assert h[i..i + |sub|] == img[i..i + |sub|];
      } else {
        assert img[i..i + |sub|][|h| - 1 - i] == img[|h| - 1] == ',';
      }
    }
  }

  /** The header of a base64 data URL for `image/<t>`. */
  function DataUrlHeader(t: string): string
  {
    "data:image/" + t + ";base64,"
  }

  /** The type sent is the type the data URL declares, for the three
      types the rule knows, as long as the base64 payload does not itself
      spell `image/png` or `image/webp`. */
  lemma DeclaredTypeSent(t: string, payload: string)
    requires t == "png" || t == "webp" || t == "jpeg"
    requires !Contains(payload, "image/png") && !Contains(payload, "image/webp")
    ensures MimeType(DataUrlHeader(t) + payload) == "image/" + t
  {
    var h := DataUrlHeader(t);
    var img := h + payload;
    if t == "png" {
      assert img[5..14] == "image/png";
      assert OccursAt(img, "image/png", 5);
    } else {
      HeaderLacks(t, "image/png");
      NoneAcrossComma(h, payload, "image/png");
      if t == "webp" {
        assert img[5..15] == "image/webp";
        assert OccursAt(img, "image/webp", 5);
      } else {
        HeaderLacks(t, "image/webp");
        NoneAcrossComma(h, payload, "image/webp");
      }
    }
  }

  /** Any other declared type is sent as JPEG: a GIF is labelled
      `image/jpeg`. */
  lemma OtherTypesSentAsJpeg(payload: string)
    requires !Contains(payload, "image/png") && !Contains(payload, "image/webp")
    ensures MimeType(DataUrlHeader("gif") + payload) == "image/jpeg"
  {
    HeaderLacks("gif", "image/png");
    NoneAcrossComma(DataUrlHeader("gif"), payload, "image/png");
    HeaderLacks("gif", "image/webp");
    NoneAcrossComma(DataUrlHeader("gif"), payload, "image/webp");
  }

  /** The test looks at the whole string, payload included: a JPEG whose
      base64 text happens to spell `image/png` is labelled PNG. */
  lemma PayloadCanMislabel()
    ensures MimeType(DataUrlHeader("jpeg") + "image/png") == "image/png"
  {
    var img := DataUrlHeader("jpeg") + "image/png";
    assert img[|img| - 9..] == "image/png";
    assert OccursAt(img, "image/png", |img| - 9);
  }

  /** No occurrence of `sub` in `h` starts where `h` differs from `sub`
      in its first, second or seventh character. */
  lemma LacksBy(h: string, sub: string)
    requires |sub| >= 7
    requires forall i :: 0 <= i <= |h| - |sub| ==>
               h[i] != sub[0] || h[i + 1] != sub[1] || h[i + 6] != sub[6]
    ensures !Contains(h, sub)
  {
    forall i | 0 <= i <= |h| - |sub|
      ensures !OccursAt(h, sub, i)
    {
      var w := h[i..i + |sub|];
      assert w[0] == h[i] && w[1] == h[i + 1] && w[6] == h[i + 6];
    }
  }

  /** The headers for WebP, JPEG and GIF do not mention another type the
      rule looks for. */
  lemma HeaderLacks(t: string, sub: string)
    requires (t == "webp" && sub == "image/png") ||
             ((t == "jpeg" || t == "gif") && (sub == "image/png" || sub == "image/webp"))
    ensures !Contains(DataUrlHeader(t), sub)
  {
    LacksBy(DataUrlHeader(t), sub);
  }

  /** One element of `imageParts`. */
  function ImagePart(img: string): (c: Content)
    ensures c.InlineData?
    ensures !Contains(img, Marker) ==> c.data == img
    ensures Contains(img, Marker) ==> !Contains(c.data, Marker)
    ensures c.mimeType in {"image/png", "image/webp", "image/jpeg"}
  {
    InlineData(ExtractPayload(img), MimeType(img))
  }

  /** A data URL the browser makes for a PNG, WebP or JPEG file becomes a
      part with exactly its base64 payload and its declared type (base64
      text has no comma; the payload must not spell another image type). */
  lemma ImagePartOfDataUrl(t: string, payload: string)
    requires t == "png" || t == "webp" || t == "jpeg"
    requires forall k :: 0 <= k < |payload| ==> payload[k] != ','
    requires !Contains(payload, "image/png") && !Contains(payload, "image/webp")
    ensures ImagePart(DataUrlHeader(t) + payload) == InlineData(payload, "image/" + t)
  {
    var header := "data:image/" + t + ";";
    assert DataUrlHeader(t) + payload == header + Marker + payload;
    assert forall c :: c in header ==> c != ',';
    DataUrlPayload(header, payload);
    DeclaredTypeSent(t, payload);
  }

  /** `[prompt, ...imageParts]`: the prompt first, then one inline part per
      uploaded image, in upload order. */
  function BuildContents(prompt: string, images: seq<string>): (cs: seq<Content>)
    ensures |cs| == |images| + 1
    ensures cs[0] == TextPart(prompt)
    ensures forall k :: 0 <= k < |images| ==>
              cs[k + 1].InlineData? && cs[k + 1].data == ExtractPayload(images[k]) &&
              cs[k + 1].mimeType == MimeType(images[k])
  {
    [TextPart(prompt)] + seq(|images|, k requires 0 <= k < |images| => ImagePart(images[k]))
  }

  /** Data of the first part carrying inline data, if any. */
  function FirstInline(parts: seq<Part>): (r: Option<string>)
    ensures r.None? <==> forall k :: 0 <= k < |parts| ==> parts[k].inlineData.None?
    ensures r.Some? ==> exists k :: 0 <= k < |parts| && parts[k].inlineData.Some? &&
                                    r.value == parts[k].inlineData.value.data &&
                                    forall j :: 0 <= j < k ==> parts[j].inlineData.None?
    decreases |parts|
  {
    if |parts| == 0 then None
    else if parts[0].inlineData.Some? then Some(parts[0].inlineData.value.data)
    else
      var r := FirstInline(parts[1..]);
      if r.Some? then
        var k :| 0 <= k < |parts[1..]| && parts[1..][k].inlineData.Some? &&
                 r.value == parts[1..][k].inlineData.value.data &&
                 forall j :: 0 <= j < k ==> parts[1..][j].inlineData.None?;
        assert parts[k + 1] == parts[1..][k];
        assert forall j :: 1 <= j < k + 1 ==> parts[j] == parts[1..][j - 1];
        r
      else
        assert forall j :: 1 <= j < |parts| ==> parts[j] == parts[1..][j - 1];
        r
  }

  /** The inline image of the first candidate, when there is one. */
  function FirstCandidateImage(candidates: Option<seq<Candidate>>): (r: Option<string>)
    ensures r.Some? <==> candidates.Some? && |candidates.value| > 0 &&
                         exists k :: 0 <= k < |candidates.value[0].parts| &&
                                     candidates.value[0].parts[k].inlineData.Some?
    ensures r.Some? ==> r == FirstInline(candidates.value[0].parts)
  {
    if candidates.Some? && |candidates.value| > 0 then FirstInline(candidates.value[0].parts)
    else None
  }

  /** The scan over the first candidate's parts, as the route writes it:
      the first inline part wins and becomes a PNG data URL; with none, the
      result is still empty and the caller falls back to the text. */
  method ScanFirstCandidate(candidates: Option<seq<Candidate>>) returns (outputImage: string)
    ensures FirstCandidateImage(candidates).Some? ==>
              outputImage == PngDataUrlPrefix + FirstCandidateImage(candidates).value
    ensures FirstCandidateImage(candidates).None? ==> outputImage == ""
  {
    outputImage := "";
    if candidates.Some? && |candidates.value| > 0 {
      var parts := candidates.value[0].parts;
      var i := 0;
      while i < |parts|
        invariant 0 <= i <= |parts|
        invariant outputImage == ""
        invariant FirstInline(parts) == FirstInline(parts[i..])
      {
        assert parts[i..][0] == parts[i] && parts[i..][1..] == parts[i + 1..];
        if parts[i].inlineData.Some? {
          outputImage := PngDataUrlPrefix + parts[i].inlineData.value.data;
          break;
        }
        i := i + 1;
      }
    }
  }

  /** The route's own prompt table, keyed by hyphenated names. */
  const RoutePrompts: map<string, string> :=
    map["virtual-tryon" := "Apply this clothing item to the person in a realistic way.",
        "interior-design" := "Transform this interior space with the given furniture.",
        "headshot" := "Create a professional headshot photo.",
        "product-placement" := "Place this product naturally in the scene."]

  /** `getPromptForTransformType(type)`: `prompts[type] || 'Transform this image.'` */
  function PromptForTransformType(t: string): (p: string)
    ensures t in RoutePrompts ==> p == RoutePrompts[t]
    ensures t !in RoutePrompts ==> p == DefaultPrompt
    ensures p != ""
  {
    if t in RoutePrompts && RoutePrompts[t] != "" then RoutePrompts[t] else DefaultPrompt
  }

  /** Of the four values the client sends, only `headshot` is a key of the
      route's table; `outfit`, `interior` and `background` get the generic prompt. */
  lemma ClientTypesMostlyMiss(t: Prompts.TransformType)
    ensures t == Prompts.Headshot ==>
              PromptForTransformType(Prompts.Key(t)) == "Create a professional headshot photo."
    ensures t != Prompts.Headshot ==> PromptForTransformType(Prompts.Key(t)) == DefaultPrompt
  {
  }

  /** `POST /api/generate` for the signed-in user `user` (absent when
      there is no session), with the model as a parameter. */
  function Generate(user: Option<string>, body: Body, model: seq<Content> -> ModelReply): (r: Response)
    ensures user.None? ==> r == Response(401, ErrorBody("Unauthorized"))
    ensures user.Some? && body.Body? &&
            (!Truthy(body.transformType) || body.images.None? || |body.images.value| == 0) ==>
              r == Response(400, ErrorBody("Missing required fields"))
    ensures r.status == 200 ==> user.Some? && body.Body? && Truthy(body.transformType) &&
                                body.images.Some? && |body.images.value| > 0
    ensures user.Some? && body.Malformed? ==>
              r == Response(500, ErrorBody(MessageOr(body.message, "Failed to generate image")))
    ensures r.status in {200, 400, 401, 500}
    // A valid request reaches the model with the route prompt and the
    // images; the first candidate's inline image wins over the text.
    ensures user.Some? && body.Body? && Truthy(body.transformType) &&
            body.images.Some? && |body.images.value| > 0 ==>
              var reply := model(BuildContents(PromptForTransformType(body.transformType.value),
                                               body.images.value));
              && (reply.Thrown? ==>
                    r == Response(500, ErrorBody(MessageOr(reply.message, "Failed to generate image"))))
              && (reply.Reply? && FirstCandidateImage(reply.candidates).Some? ==>
                    r == Response(200, ResultBody(PngDataUrlPrefix + FirstCandidateImage(reply.candidates).value)))
              && (reply.Reply? && FirstCandidateImage(reply.candidates).None? ==>
                    (r.status == 200 <==> reply.text.Ok?))
              && (reply.Reply? && FirstCandidateImage(reply.candidates).None? && reply.text.Ok? ==>
                    r == Response(200, ResultBody(reply.text.value)))
              && (reply.Reply? && FirstCandidateImage(reply.candidates).None? && reply.text.Err? ==>
                    r == Response(500, ErrorBody(MessageOr(reply.text.message, "Failed to generate image"))))
  {
    if user.None? then Response(401, ErrorBody("Unauthorized"))
    else
      match body
      case Malformed(m) => Response(500, ErrorBody(MessageOr(m, "Failed to generate image")))
      case Body(transformType, images) =>
        if !Truthy(transformType) || images.None? || |images.value| == 0 then
          Response(400, ErrorBody("Missing required fields"))
        else
          var contents := BuildContents(PromptForTransformType(transformType.value), images.value);
          match model(contents)
          case Thrown(m) => Response(500, ErrorBody(MessageOr(m, "Failed to generate image")))
          case Reply(candidates, text) =>
            match FirstCandidateImage(candidates)
            case Some(data) => Response(200, ResultBody(PngDataUrlPrefix + data))
            case None =>
              match text
              case Ok(t) => Response(200, ResultBody(t))
              case Err(m) => Response(500, ErrorBody(MessageOr(m, "Failed to generate image")))
  }

  /** Requests rejected before the model call do not depend on the model:
      no session, an unreadable body or a missing field. */
  lemma RejectedBeforeModel(user: Option<string>, body: Body,
                            m1: seq<Content> -> ModelReply, m2: seq<Content> -> ModelReply)
    requires user.None? || body.Malformed? ||
             !Truthy(body.transformType) || body.images.None? || |body.images.value| == 0
    ensures Generate(user, body, m1) == Generate(user, body, m2)
    ensures Generate(user, body, m1).status != 200
  {
  }

  /** A text opening with "You are a professional " is neither of the
      route's prompts for the client's types. */
  lemma NotARoutePrompt(lib: string, route: string)
    requires |lib| > |Prompts.Opening| && lib[..|Prompts.Opening|] == Prompts.Opening
    requires route == "Create a professional headshot photo." || route == DefaultPrompt
    ensures route != lib
  {
    assert lib[0] == lib[..|Prompts.Opening|][0];
  }

  /** The route's prompts are not the library templates of the same type:
      every library template opens with "You are a professional ". */
  lemma RouteIgnoresTemplates(t: Prompts.TransformType)
    ensures PromptForTransformType(Prompts.Key(t)) != Prompts.GetPromptForTransform(t)
  {
    ClientTypesMostlyMiss(t);
    NotARoutePrompt(Prompts.GetPromptForTransform(t), PromptForTransformType(Prompts.Key(t)));
  }
}

=== FILE: history_route.dfy ===
/** The history endpoint (app/api/history/route.ts) over the D1 table
    `image_history`: GET lists the signed-in user's latest entries, POST
    stores one. The session's user, the database binding (absent when the
    environment has none) and the two clock readings of POST are
    parameters. `created_at` is stored in whole seconds and reported in
    milliseconds. */
module HistoryRoute {
  import opened Common
  import Json
  import Query

  /** Rows GET returns at most (`LIMIT 20`). */
  const PageSize: nat := 20
  const MillisPerSecond: int := 1000

  /** A row of `image_history`; `input_images` holds JSON text and
      `created_at` whole seconds. */
  datatype HistoryRow = HistoryRow(id: string, userId: string, transformType: string,
                                   inputImages: string, outputImage: string, createdAt: int)

  /** One entry of the GET answer's `images`, with the time in milliseconds
      (before its conversion to an ISO date string). */
  datatype HistoryItem = HistoryItem(id: string, transformType: string, inputImages: seq<string>,
                                     outputImage: string, createdAtMs: int)

  /** The POST body; `Malformed` when `request.json()` throws. Absent and
      `null` fields are `None`. */
  datatype PostBody =
    | Malformed(message: string)
    | PostBody(transformType: Option<string>, inputImages: Option<seq<string>>,
               outputImage: Option<string>)

  datatype Payload =
    | ErrorBody(error: string)
    | Images(images: seq<HistoryItem>, failure: Option<string>)
    | Saved(id: string, message: string)

  datatype Response = Response(status: int, payload: Payload)

  const ParseError: string := "SyntaxError: invalid JSON"

  // ---- Timestamps ---------------------------------------------------------

  /** `Math.floor(nowMs / 1000)`: the second an instant falls in. */
  function ToSeconds(ms: int): (s: int)
    ensures s * MillisPerSecond <= ms < (s + 1) * MillisPerSecond
  {
    ms / MillisPerSecond
  }

  /** `row.created_at * 1000` */
  function ToMillis(seconds: int): (ms: int)
    ensures ms % MillisPerSecond == 0 && ms / MillisPerSecond == seconds
  {
    seconds * MillisPerSecond
  }

  /** The time GET reports for an entry stored at `ms` is `ms` rounded
      down to a whole second: never later, less than a second earlier. */
  lemma StoredTimeRoundsDown(ms: int)
    ensures ToMillis(ToSeconds(ms)) <= ms < ToMillis(ToSeconds(ms)) + MillisPerSecond
    ensures ToMillis(ToSeconds(ms)) % MillisPerSecond == 0
  {
  }

  /** Storing a reported time again gives back the same second. */
  lemma SecondsRoundTrip(seconds: int)
    ensures ToSeconds(ToMillis(seconds)) == seconds
  {
  }

  // ---- Entry ids ----------------------------------------------------------

  function DigitChar(d: int): (c: char)
    requires 0 <= d < 10
    ensures '0' <= c <= '9' && c as int - '0' as int == d
  {
    ('0' as int + d) as char
  }

  /** Decimal digits of a natural number, most significant first. */
  function Digits(n: nat): (s: string)
    ensures |s| >= 1
    ensures forall k :: 0 <= k < |s| ==> '0' <= s[k] <= '9'
    decreases n
  {
    if n < 10 then [DigitChar(n)] else Digits(n / 10) + [DigitChar(n % 10)]
  }

  /** `Date.now().toString()`: a minus sign exactly for a negative
      number, then decimal digits. */
  function DecimalString(n: int): (s: string)
    ensures |s| >= 1
    ensures s[0] == '-' <==> n < 0
    ensures forall k :: (if n < 0 then 1 else 0) <= k < |s| ==> '0' <= s[k] <= '9'
  {
    if n < 0 then "-" + Digits(-n) else Digits(n)
  }

  /** The number a string of decimal digits denotes. */
  function DigitsValue(s: string): int
    decreases |s|
  {
    if |s| == 0 then 0
    else DigitsValue(s[..|s| - 1]) * 10 + (s[|s| - 1] as int - '0' as int)
  }

  /** Reading the digits back gives the number. */
  lemma {:induction false} DigitsRoundTrip(n: nat)
    ensures DigitsValue(Digits(n)) == n
    decreases n
  {
    if n >= 10 {
      DigitsRoundTrip(n / 10);
      var s := Digits(n / 10) + [DigitChar(n % 10)];
      assert s[..|s| - 1] == Digits(n / 10);
      assert s[|s| - 1] as int - '0' as int == n % 10;
      assert (n / 10) * 10 + n % 10 == n;
    }
  }

  /** Different numbers have different digits. */
  lemma DigitsInjective(m: nat, n: nat)
    requires Digits(m) == Digits(n)
    ensures m == n
  {
    DigitsRoundTrip(m);
    DigitsRoundTrip(n);
  }

  /** Distinct instants give distinct ids, and one instant one id: two
      entries saved in the same millisecond share an id. */
  lemma IdsFollowClock(a: int, b: int)
    ensures DecimalString(a) == DecimalString(b) <==> a == b
  {
    var sa, sb := DecimalString(a), DecimalString(b);
    if sa == sb {
      if a < 0 && b < 0 {
        assert sa[1..] == Digits(-a) && sb[1..] == Digits(-b);
        DigitsInjective(-a, -b);
      } else if a >= 0 && b >= 0 {
        DigitsInjective(a, b);
      }
    }
  }

  // ---- GET ----------------------------------------------------------------

  function CreatedAt(row: HistoryRow): int { row.createdAt }

  /** `SELECT * FROM image_history WHERE user_id = ? ORDER BY created_at DESC LIMIT 20` */
  function SelectHistory(table: seq<HistoryRow>, userId: string): (rows: seq<HistoryRow>)
    ensures var mine := Query.Where(table, OfUser(userId));
            |rows| == if PageSize < |mine| then PageSize else |mine|
    ensures forall k :: 0 <= k < |rows| ==> rows[k].userId == userId
    ensures Query.SortedDesc(rows, CreatedAt)
    ensures multiset(rows) <= multiset(Query.Where(table, OfUser(userId))) <= multiset(table)
    ensures |Query.Where(table, OfUser(userId))| <= PageSize ==>
              multiset(rows) == multiset(Query.Where(table, OfUser(userId)))
    // The newest rows: a row of the user left out is never newer than one kept.
    ensures forall x :: multiset(rows)[x] < multiset(Query.Where(table, OfUser(userId)))[x] ==>
              forall y :: y in rows ==> y.createdAt >= x.createdAt
  {
    Query.SelectNewest(table, OfUser(userId), CreatedAt, PageSize)
  }

  /** The rows of one user. */
  function OfUser(userId: string): HistoryRow -> bool
  {
    (row: HistoryRow) => row.userId == userId
  }

  /** One answer entry, from a row and its parsed image list. */
  function ToItem(row: HistoryRow, inputImages: seq<string>): HistoryItem
  {
    HistoryItem(row.id, row.transformType, inputImages, row.outputImage, ToMillis(row.createdAt))
  }

  /** `result.results?.map(…)`: every row's JSON parsed, or the parse error. */
  function DecodeRows(rows: seq<HistoryRow>): (r: Result<seq<HistoryItem>>)
    ensures r.Ok? <==> forall k :: 0 <= k < |rows| ==> Json.Parse(rows[k].inputImages).Some?
    ensures r.Ok? ==> |r.value| == |rows|
    ensures r.Ok? ==> forall k :: 0 <= k < |rows| ==>
                        r.value[k] == ToItem(rows[k], Json.Parse(rows[k].inputImages).value)
    decreases |rows|
  {
    if |rows| == 0 then Ok([])
    else
      match Json.Parse(rows[0].inputImages)
      case None => Err(ParseError)
      case Some(images) =>
        match DecodeRows(rows[1..])
        case Err(m) =>
          var k :| 0 <= k < |rows[1..]| && Json.Parse(rows[1..][k].inputImages).None?;
          assert rows[k + 1] == rows[1..][k];
          Err(m)
        case Ok(rest) =>
          assert forall k :: 1 <= k < |rows| ==> rows[k] == rows[1..][k - 1];
          Ok([ToItem(rows[0], images)] + rest)
  }

  /** `GET /api/history` */
  function Get(user: Option<string>, db: Option<seq<HistoryRow>>): (r: Response)
    ensures user.None? ==> r == Response(401, ErrorBody("Unauthorized"))
    ensures user.Some? && db.None? ==> r == Response(200, Images([], None))
    ensures user.Some? && db.Some? ==>
              var rows := SelectHistory(db.value, user.value);
              match DecodeRows(rows)
              case Ok(items) => r == Response(200, Images(items, None))
              case Err(m) => r == Response(500, Images([], Some(m)))
    ensures r.status == 200 ==> |r.payload.images| <= PageSize
    ensures r.status == 200 ==> forall i, j :: 0 <= i < j < |r.payload.images| ==>
              r.payload.images[i].createdAtMs >= r.payload.images[j].createdAtMs
  {
    if user.None? then Response(401, ErrorBody("Unauthorized"))
    else if db.None? then Response(200, Images([], None))
    else
      var rows := SelectHistory(db.value, user.value);
      match DecodeRows(rows)
      case Ok(items) =>
        assert forall i, j :: 0 <= i < j < |rows| ==> rows[i].createdAt >= rows[j].createdAt;
        Response(200, Images(items, None))
      case Err(m) => Response(500, Images([], Some(m)))
  }

  // ---- POST ---------------------------------------------------------------

  /** The 400 check: `!transformType || !inputImages || !outputImage`. Any
      list, even an empty one, is truthy. */
  predicate MissingFields(transformType: Option<string>, inputImages: Option<seq<string>>,
                          outputImage: Option<string>)
  {
    !Truthy(transformType) || inputImages.None? || !Truthy(outputImage)
  }

  /** `POST /api/history`: the answer and the table afterwards. `firstMs`
      and `secondMs` are the two `Date.now()` readings: the first names
      the entry, the second dates it. `insertFailure` is the outcome of the
      INSERT, which this model cannot decide (the table's constraints are
      not part of it): `None` when it succeeds, the thrown message when it
      fails. */
  function Post(user: Option<string>, body: PostBody, db: Option<seq<HistoryRow>>,
                firstMs: int, secondMs: int, insertFailure: Option<string>)
    : (r: (Response, Option<seq<HistoryRow>>))
    // Nothing is written unless the answer is 200.
    ensures r.0.status != 200 ==> r.1 == db
    ensures user.None? ==> r.0 == Response(401, ErrorBody("Unauthorized"))
    ensures user.Some? && body.Malformed? ==>
              r.0 == Response(500, ErrorBody(MessageOr(body.message, "Failed to save history")))
    ensures user.Some? && body.PostBody? &&
            MissingFields(body.transformType, body.inputImages, body.outputImage) ==>
              r.0 == Response(400, ErrorBody("Missing required fields"))
    ensures user.Some? && body.PostBody? &&
            !MissingFields(body.transformType, body.inputImages, body.outputImage) && db.None? ==>
              r.0 == Response(500, ErrorBody("Database not available"))
    // A failing INSERT is caught: 500 with its message, nothing stored.
    ensures user.Some? && body.PostBody? &&
            !MissingFields(body.transformType, body.inputImages, body.outputImage) && db.Some? &&
            insertFailure.Some? ==>
              r == (Response(500, ErrorBody(MessageOr(insertFailure.value, "Failed to save history"))), db)
    // A stored entry: one row appended, named by the first reading, dated
    // by the second in seconds, with the image list as JSON.
    ensures r.0.status == 200 <==>
              user.Some? && body.PostBody? &&
              !MissingFields(body.transformType, body.inputImages, body.outputImage) && db.Some? &&
              insertFailure.None?
    ensures r.0.status == 200 ==>
              && r.0.payload == Saved(DecimalString(firstMs), "History saved successfully")
              && r.1 == Some(db.value + [HistoryRow(DecimalString(firstMs), user.value,
                                                    body.transformType.value,
                                                    Json.Serialize(body.inputImages.value),
                                                    body.outputImage.value, ToSeconds(secondMs))])
  {
    if user.None? then (Response(401, ErrorBody("Unauthorized")), db)
    else
      match body
      case Malformed(m) => (Response(500, ErrorBody(MessageOr(m, "Failed to save history"))), db)
      case PostBody(transformType, inputImages, outputImage) =>
        if MissingFields(transformType, inputImages, outputImage) then
          (Response(400, ErrorBody("Missing required fields")), db)
        else if db.None? then
          (Response(500, ErrorBody("Database not available")), db)
        else if insertFailure.Some? then
          (Response(500, ErrorBody(MessageOr(insertFailure.value, "Failed to save history"))), db)
        else
          var id := DecimalString(firstMs);
          var row := HistoryRow(id, user.value, transformType.value,
                                Json.Serialize(inputImages.value), outputImage.value,
                                ToSeconds(secondMs));
          (Response(200, Saved(id, "History saved successfully")), Some(db.value + [row]))
  }

  /** A row appended for a user with fewer than 20 entries is selected. */
  lemma NewRowSelected(table: seq<HistoryRow>, row: HistoryRow)
    requires |Query.Where(table, OfUser(row.userId))| < PageSize
    ensures row in SelectHistory(table + [row], row.userId)
  {
    var after := table + [row];
    Query.WhereAppend(table, row, OfUser(row.userId));
    Query.WhereCounts(after, OfUser(row.userId));
    assert row in multiset(Query.Where(after, OfUser(row.userId)));
    assert row in multiset(SelectHistory(after, row.userId));
  }

  /** When every row's JSON parses, so does every selected row's. */
  lemma SelectedRowsDecode(table: seq<HistoryRow>, user: string)
    requires forall k :: 0 <= k < |table| ==> Json.Parse(table[k].inputImages).Some?
    ensures DecodeRows(SelectHistory(table, user)).Ok?
  {
    var parses := (r: HistoryRow) => Json.Parse(r.inputImages).Some?;
    assert forall k :: 0 <= k < |table| ==> parses(table[k]);
    Query.SubMultisetSatisfies(SelectHistory(table, user), table, parses);
  }

  /** A selected row whose JSON parses is answered by GET as an item with
      its id, its images and its time in milliseconds. */
  lemma GetListsRow(table: seq<HistoryRow>, row: HistoryRow)
    requires row in SelectHistory(table, row.userId)
    requires forall k :: 0 <= k < |table| ==> Json.Parse(table[k].inputImages).Some?
    ensures Get(Some(row.userId), Some(table)).status == 200
    ensures var items := Get(Some(row.userId), Some(table)).payload.images;
            exists k :: && 0 <= k < |items|
              && items[k].id == row.id
              && items[k].inputImages == Json.Parse(row.inputImages).value
              && items[k].createdAtMs == ToMillis(row.createdAt)
  {
    var rows := SelectHistory(table, row.userId);
    SelectedRowsDecode(table, row.userId);
    var k :| 0 <= k < |rows| && rows[k] == row;
    var items := DecodeRows(rows).value;
    assert items[k] == ToItem(row, Json.Parse(row.inputImages).value);
  }

  /** The item GET lists for a row: same id, the given images, and the
      row's time in milliseconds. */
  predicate Lists(items: seq<HistoryItem>, id: string, images: seq<string>, createdAtMs: int)
  {
    exists k :: && 0 <= k < |items|
                && items[k].id == id
                && items[k].inputImages == images
                && items[k].createdAtMs == createdAtMs
  }

  /** A row appended for a user with fewer than 20 entries, over a table
      whose JSON all parses, is answered by the next GET. */
  lemma AppendedRowListed(table: seq<HistoryRow>, row: HistoryRow, images: seq<string>)
    requires Json.Parse(row.inputImages) == Some(images)
    requires |Query.Where(table, OfUser(row.userId))| < PageSize
    requires forall k :: 0 <= k < |table| ==> Json.Parse(table[k].inputImages).Some?
    ensures Get(Some(row.userId), Some(table + [row])).status == 200
    ensures Lists(Get(Some(row.userId), Some(table + [row])).payload.images,
                  row.id, images, ToMillis(row.createdAt))
  {
    var after := table + [row];
    assert forall k :: 0 <= k < |after| ==> Json.Parse(after[k].inputImages).Some?;
    NewRowSelected(table, row);
    GetListsRow(after, row);
  }

  /** A saved entry shows up in the next GET of a user with fewer than 20
      entries: same id, same images, and a time at most a second before
      the instant it was dated with. */
  lemma SavedEntryListed(user: string, transformType: string, images: seq<string>,
                         outputImage: string, table: seq<HistoryRow>, firstMs: int, secondMs: int)
    requires transformType != "" && outputImage != ""
    requires |Query.Where(table, OfUser(user))| < PageSize
    requires forall k :: 0 <= k < |table| ==> Json.Parse(table[k].inputImages).Some?
    ensures var body := PostBody(Some(transformType), Some(images), Some(outputImage));
            var after := Post(Some(user), body, Some(table), firstMs, secondMs, None).1;
            var answer := Get(Some(user), after);
            && answer.status == 200
            && Lists(answer.payload.images, DecimalString(firstMs), images, ToMillis(ToSeconds(secondMs)))
    ensures secondMs - MillisPerSecond < ToMillis(ToSeconds(secondMs)) <= secondMs
  {
    var row := HistoryRow(DecimalString(firstMs), user, transformType, Json.Serialize(images),
                          outputImage, ToSeconds(secondMs));
    var body := PostBody(Some(transformType), Some(images), Some(outputImage));
    assert Post(Some(user), body, Some(table), firstMs, secondMs, None).1 == Some(table + [row]);
    Json.ParseSerialize(images);
    AppendedRowListed(table, row, images);
    var answer := Get(Some(user), Some(table + [row]));
    assert answer.status == 200;
    assert Lists(answer.payload.images, DecimalString(firstMs), images, ToMillis(ToSeconds(secondMs)));
    StoredTimeRoundsDown(secondMs);
  }
}

=== FILE: image_uploader.dfy ===
/** The merge rule of the image picker (components/ImageUploader.tsx):
    which chosen files are added to the current list, when reading stops,
    how the result is cut to `maxImages`, and removal by position. Turning
    a file into a data URL (`FileReader.readAsDataURL`) is not modelled: each
    file carries the data URL it would produce. */
module ImageUploader {
  import opened Common

  /** Largest accepted file: 10 MiB. */
  const MaxFileBytes: int := 10 * 1024 * 1024
  const TooLargeMessage: string := "File too large. Max 10MB per image."
  const NotImageMessage: string := "Only image files are allowed."

  /** A chosen file: its size in bytes, its MIME type and its data URL. */
  datatype File = File(size: int, mimeType: string, dataUrl: string)

  /** What a change event produces: the list handed to `onImagesChange`
      and the error message left on screen. */
  datatype Change = Change(images: seq<string>, error: string)

  predicate TooLarge(f: File) { f.size > MaxFileBytes }

  predicate IsImage(f: File) { StartsWith(f.mimeType, "image/") }

  /** A file survives both checks of the loop. */
  predicate Acceptable(f: File) { !TooLarge(f) && IsImage(f) }

  /** `s.slice(0, end)`: a negative end counts back from the end of `s`. */
  function JsSliceTo<T>(s: seq<T>, end: int): (r: seq<T>)
    ensures end >= 0 ==> |r| == Min(end, |s|)
    ensures end < 0 ==> |r| == Max(|s| + end, 0)
    ensures r <= s
  {
    if end >= 0 then s[..Min(end, |s|)] else s[..Max(|s| + end, 0)]
  }

  /** Data URLs of the acceptable files, in the order chosen. */
  function AcceptedUrls(files: seq<File>): (urls: seq<string>)
    ensures |urls| <= |files|
  {
    if |files| == 0 then []
    else if Acceptable(files[0]) then [files[0].dataUrl] + AcceptedUrls(files[1..])
    else AcceptedUrls(files[1..])
  }

  /** The loop of `handleFileChange` over `files`, where `room` is how many
      more images fit (`maxImages - images.length - newImages.length`) and
      `error` the message currently shown: the data URLs pushed and the
      message left at the end. */
  function Scan(files: seq<File>, room: int, error: string): (res: (seq<string>, string))
    decreases |files|
  {
    if |files| == 0 then ([], error)
    else if TooLarge(files[0]) then Scan(files[1..], room, TooLargeMessage)
    else if !IsImage(files[0]) then Scan(files[1..], room, NotImageMessage)
    else if room - 1 <= 0 then ([files[0].dataUrl], error)
    else
      var rest := Scan(files[1..], room - 1, error);
      ([files[0].dataUrl] + rest.0, rest.1)
  }

  /** The images the loop pushes are the first acceptable files in order:
      all of them if they fit, otherwise as many as fit and never fewer
      than one (the room check runs after the push). */
  lemma {:induction false} ScanTakesAccepted(files: seq<File>, room: int, error: string)
    ensures var n := Min(|AcceptedUrls(files)|, Max(1, room));
            Scan(files, room, error).0 == AcceptedUrls(files)[..n]
    decreases |files|
  {
    if |files| > 0 {
      ScanTakesAccepted(files[1..], room, TooLargeMessage);
      ScanTakesAccepted(files[1..], room, NotImageMessage);
      ScanTakesAccepted(files[1..], room - 1, error);
    }
  }

  /** The message a rejected file puts on screen. */
  function RejectMessage(f: File): string
  {
    if TooLarge(f) then TooLargeMessage else NotImageMessage
  }

  /** The message on screen after the files `fs` were looked at in order,
      starting from `error`: that of the last rejected file, found by
      reading `fs` from the back; `error` when none was rejected. */
  function LastRejection(fs: seq<File>, error: string): string
    decreases |fs|
  {
    if |fs| == 0 then error
    else if !Acceptable(fs[|fs| - 1]) then RejectMessage(fs[|fs| - 1])
    else LastRejection(fs[..|fs| - 1], error)
  }

  /** With no rejected file the message is the one shown before; otherwise
      it is the message of the rejected file that no other rejected file
      follows. */
  lemma {:induction false} LastRejectionNamesFile(fs: seq<File>, error: string, k: int)
    requires (0 <= k < |fs| && !Acceptable(fs[k])) || (k == -1 && forall j :: 0 <= j < |fs| ==> Acceptable(fs[j]))
    requires forall j :: k < j < |fs| ==> Acceptable(fs[j])
    ensures LastRejection(fs, error) == if k == -1 then error else RejectMessage(fs[k])
    decreases |fs|
  {
    if |fs| > 0 && k != |fs| - 1 {
      var init := fs[..|fs| - 1];
      assert forall j :: 0 <= j < |init| ==> init[j] == fs[j];
      LastRejectionNamesFile(init, error, k);
    }
  }

  /** How many files the loop looks at before it stops. */
  function Examined(files: seq<File>, room: int): (n: nat)
    ensures n <= |files|
    decreases |files|
  {
    if |files| == 0 then 0
    else if !Acceptable(files[0]) then 1 + Examined(files[1..], room)
    else if room - 1 <= 0 then 1
    else 1 + Examined(files[1..], room - 1)
  }

  /** The loop looks at every file when fewer acceptable files than fit
      were chosen; otherwise it stops right after the acceptable file that
      fills the room, having taken exactly `max(1, room)` of them. */
  lemma {:induction false} ExaminedStopsWhenFull(files: seq<File>, room: int)
    ensures |AcceptedUrls(files)| < Max(1, room) ==> Examined(files, room) == |files|
    ensures |AcceptedUrls(files)| >= Max(1, room) ==>
              var n := Examined(files, room);
              0 < n && Acceptable(files[n - 1]) && |AcceptedUrls(files[..n])| == Max(1, room)
    decreases |files|
  {
    if |files| > 0 {
      var n := Examined(files, room);
      if !Acceptable(files[0]) {
        ExaminedStopsWhenFull(files[1..], room);
        assert files[..n][1..] == files[1..][..n - 1];
      } else if room - 1 > 0 {
        ExaminedStopsWhenFull(files[1..], room - 1);
        assert files[..n][1..] == files[1..][..n - 1];
      } else {
        assert files[..n][1..] == [];
      }
    }
  }

  /** Looking at one more file in front: it passes the message on, or
      replaces it with its own. */
  lemma {:induction false} LastRejectionCons(f: File, fs: seq<File>, error: string)
    ensures LastRejection([f] + fs, error) ==
            LastRejection(fs, if Acceptable(f) then error else RejectMessage(f))
    decreases |fs|
  {
    var s := [f] + fs;
    if |fs| > 0 {
      assert s[|s| - 1] == fs[|fs| - 1];
      assert s[..|s| - 1] == [f] + fs[..|fs| - 1];
      LastRejectionCons(f, fs[..|fs| - 1], error);
    } else {
      assert s[..|s| - 1] == [];
    }
  }

  /** The message the loop leaves is that of the last file it rejected
      before stopping, or the one it started with when it rejected none. */
  lemma {:induction false} ScanErrorIsLastRejection(files: seq<File>, room: int, error: string)
    ensures Scan(files, room, error).1 == LastRejection(files[..Examined(files, room)], error)
    decreases |files|
  {
    var n := Examined(files, room);
    if |files| > 0 {
      var f := files[0];
      if TooLarge(f) || !IsImage(f) {
        ScanErrorIsLastRejection(files[1..], room, RejectMessage(f));
        assert files[..n] == [f] + files[1..][..n - 1];
        LastRejectionCons(f, files[1..][..n - 1], error);
      } else if room - 1 <= 0 {
        assert files[..n] == [f] + [];
        LastRejectionCons(f, [], error);
      } else {
        ScanErrorIsLastRejection(files[1..], room - 1, error);
        assert files[..n] == [f] + files[1..][..n - 1];
        LastRejectionCons(f, files[1..][..n - 1], error);
      }
    } else {
      assert files[..n] == [];
    }
  }

  /** `handleFileChange`: `None` when the event carries no file list (nothing
      is handed to `onImagesChange` and the error is left as it was). */
  method HandleFileChange(images: seq<string>, maxImages: int, files: Option<seq<File>>)
    returns (r: Option<Change>)
    ensures files.None? <==> r.None?
    ensures files.Some? ==>
              var fs := files.value;
              var added := Scan(fs, maxImages - |images|, "");
              && r.value.images == JsSliceTo(images + added.0, maxImages)
              && r.value.error == added.1
              && added.0 == AcceptedUrls(fs)[..Min(|AcceptedUrls(fs)|, Max(1, maxImages - |images|))]
              && r.value.error == LastRejection(fs[..Examined(fs, maxImages - |images|)], "")
  {
    if files.None? {
      return None;
    }
    var fs := files.value;
    var error := "";
    var newImages: seq<string> := [];
    var i := 0;
    assert fs[0..] == fs;
    while i < |fs|
      invariant 0 <= i <= |fs|
      invariant Scan(fs, maxImages - |images|, "").0 ==
                newImages + Scan(fs[i..], maxImages - |images| - |newImages|, error).0
      invariant Scan(fs, maxImages - |images|, "").1 ==
                Scan(fs[i..], maxImages - |images| - |newImages|, error).1
    {
      var file := fs[i];
      assert fs[i..][0] == file && fs[i..][1..] == fs[i + 1..];
      if file.size > MaxFileBytes {
        error := TooLargeMessage;
        i := i + 1;
        continue;
      }
      if !StartsWith(file.mimeType, "image/") {
        error := NotImageMessage;
        i := i + 1;
        continue;
      }
      newImages := newImages + [file.dataUrl];
      if |images| + |newImages| >= maxImages {
        break;
      }
      i := i + 1;
    }
    ScanTakesAccepted(fs, maxImages - |images|, "");
    ScanErrorIsLastRejection(fs, maxImages - |images|, "");
    r := Some(Change(JsSliceTo(images + newImages, maxImages), error));
  }

  /** Properties of the list handed on: never longer than `maxImages`, the current images kept in front when
      they fit, and every new entry the data URL of an acceptable file. */
  lemma MergedList(images: seq<string>, maxImages: int, files: seq<File>)
    requires maxImages >= 0
    ensures var merged := JsSliceTo(images + Scan(files, maxImages - |images|, "").0, maxImages);
            && |merged| <= maxImages
            && (|images| <= maxImages ==> images <= merged)
            && forall k :: |images| <= k < |merged| ==> merged[k] in AcceptedUrls(files)
  {
    var n := Min(|AcceptedUrls(files)|, Max(1, maxImages - |images|));
    ScanTakesAccepted(files, maxImages - |images|, "");
    var merged := JsSliceTo(images + Scan(files, maxImages - |images|, "").0, maxImages);
    forall k | |images| <= k < |merged|
      ensures merged[k] in AcceptedUrls(files)
    {
      assert merged[k] == AcceptedUrls(files)[k - |images|];
    }
  }

  /** A data URL is only ever taken from a file that passed both checks. */
  lemma {:induction false} AcceptedComeFromAcceptableFiles(files: seq<File>, url: string)
    requires url in AcceptedUrls(files)
    ensures exists k :: 0 <= k < |files| && files[k].dataUrl == url && Acceptable(files[k])
    decreases |files|
  {
    if !(Acceptable(files[0]) && files[0].dataUrl == url) {
      AcceptedComeFromAcceptableFiles(files[1..], url);
      var k :| 0 <= k < |files[1..]| && files[1..][k].dataUrl == url && Acceptable(files[1..][k]);
      assert files[k + 1] == files[1..][k];
    }
  }

  /** When the list is already full no chosen file gets in: what is handed
      on is a prefix of the current list. */
  lemma FullListTakesNothing(images: seq<string>, maxImages: int, files: seq<File>)
    requires maxImages >= 0 && !CanAddMore(images, maxImages)
    ensures JsSliceTo(images + Scan(files, maxImages - |images|, "").0, maxImages) <= images
  {
    var added := Scan(files, maxImages - |images|, "").0;
    var merged := JsSliceTo(images + added, maxImages);
    assert merged == (images + added)[..maxImages];
    assert merged == images[..maxImages];
  }

  /** The entries of `s` whose position differs from `index`, in order;
      positions are counted from `offset`. */
  function KeepOtherPositions(s: seq<string>, index: int, offset: int): seq<string>
    decreases |s|
  {
    if |s| == 0 then []
    else if offset == index then KeepOtherPositions(s[1..], index, offset + 1)
    else [s[0]] + KeepOtherPositions(s[1..], index, offset + 1)
  }

  lemma {:induction false} KeepOtherPositionsSpec(s: seq<string>, index: int, offset: int)
    ensures offset <= index < offset + |s| ==>
              KeepOtherPositions(s, index, offset) == s[..index - offset] + s[index - offset + 1..]
    ensures !(offset <= index < offset + |s|) ==> KeepOtherPositions(s, index, offset) == s
    decreases |s|
  {
    if |s| > 0 {
      KeepOtherPositionsSpec(s[1..], index, offset + 1);
      if offset == index {
        assert s[..0] + s[1..] == s[1..];
      } else if offset < index < offset + |s| {
        assert [s[0]] + (s[1..][..index - offset - 1] + s[1..][index - offset..])
               == s[..index - offset] + s[index - offset + 1..];
      } else {
        assert [s[0]] + s[1..] == s;
      }
    }
  }

  /** `removeImage(index)`: `images.filter((_, i) => i !== index)`. A valid
      index removes exactly that entry, keeping the others in order; any
      other index changes nothing. */
  function RemoveImage(images: seq<string>, index: int): (r: seq<string>)
    ensures 0 <= index < |images| ==> |r| == |images| - 1
    ensures 0 <= index < |images| ==>
              (forall k :: 0 <= k < index ==> r[k] == images[k]) &&
              (forall k :: index <= k < |r| ==> r[k] == images[k + 1])
    ensures !(0 <= index < |images|) ==> r == images
  {
    KeepOtherPositionsSpec(images, index, 0);
    KeepOtherPositions(images, index, 0)
  }

  /** `canAddMore`: whether the upload control is offered at all. */
  predicate CanAddMore(images: seq<string>, maxImages: int)
  {
    |images| < maxImages
  }

  /** While there is room, choosing one acceptable file adds it at the end. */
  lemma RoomMeansGrowth(images: seq<string>, maxImages: int, f: File)
    requires CanAddMore(images, maxImages) && Acceptable(f)
    ensures JsSliceTo(images + Scan([f], maxImages - |images|, "").0, maxImages) == images + [f.dataUrl]
  {
    assert Scan([f], maxImages - |images|, "").0 == [f.dataUrl];
  }
}

=== FILE: json.dfy ===
/** The JSON text of a list of strings, as `JSON.stringify` writes it and
    `JSON.parse` reads it back: the encoding of the `input_images` column.
    Only arrays of strings are modelled, with no whitespace between tokens
    (the form `JSON.stringify` produces). */
module Json {
  import opened Common

  /** Digit `d` of a `\u00XY` escape, lower-case as `JSON.stringify` writes it. */
  function HexDigit(d: int): (c: char)
    requires 0 <= d < 16
    ensures HexValue(c) == Some(d)
  {
    "0123456789abcdef"[d]
  }

  /** Value of one hexadecimal digit, either case. */
  function HexValue(c: char): (r: Option<int>)
    ensures r.Some? ==> 0 <= r.value < 16
  {
    if '0' <= c <= '9' then Some(c as int - '0' as int)
    else if 'a' <= c <= 'f' then Some(c as int - 'a' as int + 10)
    else if 'A' <= c <= 'F' then Some(c as int - 'A' as int + 10)
    else None
  }

  /** Characters below U+0020 must not appear raw inside a JSON string. */
  predicate IsControl(c: char) { (c as int) < 0x20 }

  /** How `JSON.stringify` writes one character inside a string literal. */
  function EscapeChar(c: char): (e: string)
    ensures |e| >= 1
    ensures e[0] != '"'
    ensures e[0] == '\\' || (e == [c] && !IsControl(c) && c != '\\')
  {
    if c == '"' then "\\\""
    else if c == '\\' then "\\\\"
    else if c as int == 8 then "\\b"
    else if c as int == 12 then "\\f"
    else if c as int == 10 then "\\n"
    else if c as int == 13 then "\\r"
    else if c as int == 9 then "\\t"
    else if IsControl(c) then "\\u00" + [HexDigit(c as int / 16), HexDigit(c as int % 16)]
    else [c]
  }

  /** The escaped contents of a string literal, without its quotes. */
  function EscapeAll(s: string): string
    decreases |s|
  {
    if |s| == 0 then "" else EscapeChar(s[0]) + EscapeAll(s[1..])
  }

  /** A string literal: the contents escaped and put between quotes. */
  function Quote(s: string): string
  {
    "\"" + EscapeAll(s) + "\""
  }

  /** The elements of an array, comma-separated. */
  function SerializeItems(xs: seq<string>): string
    decreases |xs|
  {
    if |xs| == 0 then ""
    else if |xs| == 1 then Quote(xs[0])
    else Quote(xs[0]) + "," + SerializeItems(xs[1..])
  }

  /** `JSON.stringify(xs)` for an array of strings. */
  function Serialize(xs: seq<string>): (s: string)
    ensures |s| >= 2 && s[0] == '[' && s[|s| - 1] == ']'
  {
    "[" + SerializeItems(xs) + "]"
  }

  /** The character an escape sequence stands for, given the text after the
      backslash, and how many characters of that text the escape uses. */
  function Unescape(s: string): (r: Option<(char, nat)>)
    ensures r.Some? ==> 1 <= r.value.1 <= |s|
  {
    if |s| == 0 then None
    else if s[0] == '"' then Some(('"', 1))
    else if s[0] == '\\' then Some(('\\', 1))
    else if s[0] == '/' then Some(('/', 1))
    else if s[0] == 'b' then Some((8 as char, 1))
    else if s[0] == 'f' then Some((12 as char, 1))
    else if s[0] == 'n' then Some((10 as char, 1))
    else if s[0] == 'r' then Some((13 as char, 1))
    else if s[0] == 't' then Some((9 as char, 1))
    else if s[0] == 'u' && |s| >= 5 then
      match (HexValue(s[1]), HexValue(s[2]), HexValue(s[3]), HexValue(s[4]))
      case (Some(a), Some(b), Some(c), Some(d)) =>
        var v := ((a * 16 + b) * 16 + c) * 16 + d;
        // A lone surrogate half has no code point of its own.
        if 0xD800 <= v < 0xE000 then None else Some((v as char, 5))
      case _ => None
    else None
  }

  /** Reads the rest of a string literal whose opening quote has been
      consumed: its decoded contents and the text after the closing quote. */
  function ParseStringBody(s: string): (r: Option<(string, string)>)
    ensures r.Some? ==> |r.value.1| < |s|
    decreases |s|
  {
    if |s| == 0 then None
    else if s[0] == '"' then Some(("", s[1..]))
    else if s[0] == '\\' then
      match Unescape(s[1..])
      case None => None
      case Some((c, n)) =>
        match ParseStringBody(s[1 + n..])
        case None => None
        case Some((t, rest)) => Some(([c] + t, rest))
    else if IsControl(s[0]) then None
    else
      match ParseStringBody(s[1..])
      case None => None
      case Some((t, rest)) => Some(([s[0]] + t, rest))
  }

  /** Reads the elements of an array after its `[`: one or more string
      literals separated by commas, then the closing `]` and nothing else. */
  function ParseElements(s: string): (r: Option<seq<string>>)
    ensures r.Some? ==> |r.value| > 0
    decreases |s|
  {
    if |s| == 0 || s[0] != '"' then None
    else
      match ParseStringBody(s[1..])
      case None => None
      case Some((x, rest)) =>
        if rest == "]" then Some([x])
        else if |rest| > 0 && rest[0] == ',' then
          match ParseElements(rest[1..])
          case None => None
          case Some(ys) => Some([x] + ys)
        else None
  }

  /** What is left after a string literal is a suffix of the text read. */
  lemma {:induction false} StringBodyRest(s: string)
    ensures ParseStringBody(s).Some? ==>
              var rest := ParseStringBody(s).value.1;
              rest == s[|s| - |rest|..]
    decreases |s|
  {
    if |s| > 0 && s[0] != '"' {
      if s[0] == '\\' {
        match Unescape(s[1..])
        case None =>
        case Some((c, n)) =>
          StringBodyRest(s[1 + n..]);
      } else {
        StringBodyRest(s[1..]);
      }
    }
  }

  /** Accepted elements always end with the closing bracket. */
  lemma {:induction false} ElementsCloseBracket(s: string)
    ensures ParseElements(s).Some? ==> |s| > 0 && s[|s| - 1] == ']'
    decreases |s|
  {
    if |s| > 0 && s[0] == '"' && ParseStringBody(s[1..]).Some? {
      var rest := ParseStringBody(s[1..]).value.1;
      StringBodyRest(s[1..]);
      assert rest == s[|s| - |rest|..];
      if rest != "]" && |rest| > 0 && rest[0] == ',' {
        ElementsCloseBracket(rest[1..]);
        assert rest[1..] == s[|s| - |rest| + 1..];
      } else if rest == "]" {
        assert s[|s| - 1] == rest[0];
      }
    }
  }

  /** `JSON.parse(s)` where the text is expected to be an array of strings;
      `None` where `JSON.parse` would throw or give something else. */
  function Parse(s: string): (r: Option<seq<string>>)
    ensures r.Some? ==> |s| >= 2 && s[0] == '['
    ensures r == Some([]) <==> s == "[]"
  {
    if |s| < 2 || s[0] != '[' then None
    else if s == "[]" then Some([])
    else ParseElements(s[1..])
  }

  /** Only bracketed text parses: it opens with `[` and closes with `]`. */
  lemma ParseNeedsBrackets(s: string)
    ensures Parse(s).Some? ==> |s| >= 2 && s[0] == '[' && s[|s| - 1] == ']'
  {
    if |s| >= 2 && s[0] == '[' && s != "[]" {
      ElementsCloseBracket(s[1..]);
      assert s[1..][|s| - 2] == s[|s| - 1];
    }
  }

  /** One escaped character is read back as that character, whatever follows. */
  lemma UnescapeChar(c: char, t: string)
    ensures EscapeChar(c)[0] == '\\' ==>
              Unescape((EscapeChar(c) + t)[1..]) == Some((c, |EscapeChar(c)| - 1))
  {
    var e := EscapeChar(c);
    if e[0] == '\\' {
      var u := (e + t)[1..];
      assert u[0] == e[1];
      if IsControl(c) && !(c == '"' || c == '\\' || c as int in {8, 12, 10, 13, 9}) {
        assert u[1..5] == e[2..6];
        assert u[1] == '0' && u[2] == '0';
        var v := ((0 * 16 + 0) * 16 + c as int / 16) * 16 + c as int % 16;
        assert v == c as int;
      }
    }
  }

  /** The escaped contents followed by the closing quote read back as the
      original contents, leaving whatever came after the quote. */
  lemma {:induction false} StringBodyRoundTrip(x: string, rest: string)
    ensures ParseStringBody(EscapeAll(x) + "\"" + rest) == Some((x, rest))
    decreases |x|
  {
    var s := EscapeAll(x) + "\"" + rest;
    if |x| == 0 {
      assert s == "\"" + rest;
      assert s[1..] == rest;
    } else {
      var e := EscapeChar(x[0]);
      var tail := EscapeAll(x[1..]) + "\"" + rest;
      assert s == e + tail;
      StringBodyRoundTrip(x[1..], rest);
      if e[0] == '\\' {
        UnescapeChar(x[0], tail);
        assert s[1..] == (e + tail)[1..];
        assert s[1 + (|e| - 1)..] == tail;
      } else {
        assert s[1..] == tail;
      }
      assert [x[0]] + x[1..] == x;
    }
  }

  /** A string literal read back from the front of a text. */
  lemma QuoteRoundTrip(x: string, after: string)
    ensures var s := Quote(x) + after;
            |s| > 0 && s[0] == '"' && ParseStringBody(s[1..]) == Some((x, after))
  {
    var s := Quote(x) + after;
    assert s == "\"" + (EscapeAll(x) + "\"" + after);
    StringBodyRoundTrip(x, after);
  }

  /** The elements and the closing bracket read back as the elements. */
  lemma {:induction false} ElementsRoundTrip(xs: seq<string>)
    requires |xs| > 0
    ensures ParseElements(SerializeItems(xs) + "]") == Some(xs)
    decreases |xs|
  {
    if |xs| == 1 {
      QuoteRoundTrip(xs[0], "]");
      assert [xs[0]] == xs;
    } else {
      var more := SerializeItems(xs[1..]) + "]";
      var after := "," + more;
      assert SerializeItems(xs) + "]" == Quote(xs[0]) + after;
      QuoteRoundTrip(xs[0], after);
      assert after[1..] == more;
      ElementsRoundTrip(xs[1..]);
      assert [xs[0]] + xs[1..] == xs;
    }
  }

  /** `JSON.parse(JSON.stringify(xs))` gives back `xs` for every list of strings. */
  lemma ParseSerialize(xs: seq<string>)
    ensures Parse(Serialize(xs)) == Some(xs)
  {
    var s := Serialize(xs);
    if |xs| > 0 {
      ElementsRoundTrip(xs);
      assert s[1..] == SerializeItems(xs) + "]";
      assert SerializeItems(xs)[0] == '"';
    }
  }

  /** Different lists have different JSON texts. */
  lemma SerializeInjective(xs: seq<string>, ys: seq<string>)
    requires Serialize(xs) == Serialize(ys)
    ensures xs == ys
  {
    ParseSerialize(xs);
    ParseSerialize(ys);
  }
}

=== FILE: middleware.dfy ===
/** The route guard run before every matched request (middleware.ts): a
    decision from the request path and the `auth_session` cookie. */
module Middleware {
  import opened Common

  const LoginPath: string := "/login"
  const AuthApiPrefix: string := "/api/auth"

  /** Let the request through, or send the browser to the login page. */
  datatype Decision = Next | RedirectToLogin

  /** Paths served without a session. A plain prefix test, so it also
      admits paths such as `/api/authx`. */
  predicate IsPublic(pathname: string)
  {
    pathname == LoginPath || StartsWith(pathname, AuthApiPrefix)
  }

  /** `middleware(request)`; `sessionCookie` is the value of the
      `auth_session` cookie when the request carries one. */
  function Guard(pathname: string, sessionCookie: Option<string>): (d: Decision)
    ensures d == RedirectToLogin <==> !IsPublic(pathname) && sessionCookie.None?
    ensures IsPublic(pathname) ==> d == Next
  {
    if IsPublic(pathname) then Next
    else if sessionCookie.None? then RedirectToLogin
    else Next
  }

  /** The login page and everything under the auth API pass with or without a cookie. */
  lemma PublicPathsPass(suffix: string, cookie: Option<string>)
    ensures Guard(LoginPath, cookie) == Next
    ensures Guard(AuthApiPrefix + suffix, cookie) == Next
  {
    assert (AuthApiPrefix + suffix)[..|AuthApiPrefix|] == AuthApiPrefix;
  }

  /** Concretely, the prefix test lets `/api/authx` through without a cookie,
      while `/` and `/api/generate` are redirected. */
  lemma PrefixExamples()
    ensures Guard("/api/authx", None) == Next
    ensures Guard("/", None) == RedirectToLogin
    ensures Guard("/api/generate", None) == RedirectToLogin
  {
    PublicPathsPass("x", None);
    assert "/api/generate"[..|AuthApiPrefix|] != AuthApiPrefix by {
      assert "/api/generate"[5] != AuthApiPrefix[5];
    }
  }

  /** The cookie's content is never looked at: only whether it is present
      matters, so even an empty cookie opens every protected path. */
  lemma CookieValueIgnored(pathname: string, a: string, b: string)
    ensures Guard(pathname, Some(a)) == Guard(pathname, Some(b)) == Next
  {
  }
}

=== FILE: prompts.dfy ===
/** The prompt table of the client-facing transform types (lib/prompts.ts)
    and the transform types themselves (types/index.ts). */
module Prompts {

  /** `TransformType`: the four use cases the client can ask for. */
  datatype TransformType = Outfit | Interior | Headshot | Background

  /** The string value of each transform type as sent over the wire. */
  function Key(t: TransformType): string
  {
    match t
    case Outfit => "outfit"
    case Interior => "interior"
    case Headshot => "headshot"
    case Background => "background"
  }

  const Opening: string := "You are a professional "

  /** A prompt template. All four share one shape: who the model is, what
      to do, and a bulleted list of requirements, one per line. */
  datatype Template = Template(role: string, task: string, requirements: seq<string>)

  /** The template as the text sent to the model. */
  function Text(tpl: Template): string
  {
    Opening + tpl.role + ". " + tpl.task + " Requirements:" + Bullets(tpl.requirements)
  }

  function Bullets(requirements: seq<string>): string
  {
    if |requirements| == 0 then "" else "\n- " + requirements[0] + Bullets(requirements[1..])
  }

  /** Who the model is told it is, per template. */
  function Role(t: TransformType): string
  {
    match t
    case Outfit => "virtual try-on assistant"
    case Interior => "interior design assistant"
    case Headshot => "portrait photographer"
    case Background => "photo editor"
  }

  /** What the model is asked to do, per template. */
  function Task(t: TransformType): string
  {
    match t
    case Outfit =>
      "Replace the clothing on the person in the first image with the outfit shown in the second image."
    case Interior =>
      "Place the furniture or object from the first image into the room shown in the second image."
    case Headshot =>
      "Transform this casual photo into a professional business headshot."
    case Background =>
      "Replace the background of this image while keeping the main subject intact."
  }

  /** The requirement bullets, per template. */
  function Requirements(t: TransformType): seq<string>
  {
    match t
    case Outfit =>
      [ "Maintain the person's exact pose, facial expression, and body proportions",
        "Preserve the original background and lighting",
        "Make the outfit fit naturally on the person's body",
        "Match the lighting and shadows realistically",
        "Keep the outfit's colors and patterns accurate",
        "Ensure the result looks professional and realistic" ]
    case Interior =>
      [ "Match the scale and proportions appropriately",
        "Align perspective correctly with the room",
        "Match lighting conditions (shadows, highlights)",
        "Ensure the object fits naturally in the space",
        "Maintain realistic depth and spatial relationships",
        "Preserve the style and ambiance of the room" ]
    case Headshot =>
      [ "Enhance lighting to studio-quality standards",
        "Use a clean, professional background (solid color or subtle blur)",
        "Improve overall image clarity and sharpness",
        "Maintain the person's natural appearance and expressions",
        "Adjust colors for professional look",
        "Keep facial features and skin tones natural",
        "Result should be suitable for LinkedIn, CV, or corporate use" ]
    case Background =>
      [ "Cleanly separate the subject from the background",
        "Maintain natural edge transitions and lighting",
        "Match the subject's lighting with the new background",
        "Preserve all details of the main subject",
        "Make the composite look seamless and realistic",
        "Adjust colors and tones for harmony" ]
  }

  /** `PROMPT_TEMPLATES`, a record with one entry per transform type. */
  function PromptTemplates(t: TransformType): Template
  {
    Template(Role(t), Task(t), Requirements(t))
  }

  /** A falsy-or lookup: the entry's text, or the headshot entry's text
      when the entry's text is empty. */
  function LookupOrHeadshot(table: TransformType -> Template, t: TransformType): string
  {
    if Text(table(t)) != "" then Text(table(t)) else Text(table(Headshot))
  }

  /** `getPromptForTransform(type)`: the type's template text, falling back
      to the headshot template when the lookup is falsy. The fallback never
      fires: no template text is empty. */
  function GetPromptForTransform(t: TransformType): (r: string)
    ensures r == Text(PromptTemplates(t))
    ensures |r| > |Opening| && r[..|Opening|] == Opening
  {
    TextIsLong(PromptTemplates(t));
    LookupOrHeadshot(PromptTemplates, t)
  }

  /** Every template text starts with the opening and goes on past it. */
  lemma TextIsLong(tpl: Template)
    ensures |Text(tpl)| > |Opening|
    ensures Text(tpl)[..|Opening|] == Opening
  {
    var rest := tpl.role + ". " + tpl.task + " Requirements:" + Bullets(tpl.requirements);
    assert Text(tpl) == Opening + rest;
  }

  /** Templates whose roles differ somewhere have different texts. */
  lemma TextsDifferByRole(x: Template, y: Template, k: nat)
    requires k < |x.role| && k < |y.role| && x.role[k] != y.role[k]
    ensures Text(x) != Text(y)
  {
    var restX := ". " + x.task + " Requirements:" + Bullets(x.requirements);
    var restY := ". " + y.task + " Requirements:" + Bullets(y.requirements);
    assert Text(x) == Opening + x.role + restX;
    assert Text(y) == Opening + y.role + restY;
    assert Text(x)[|Opening| + k] == x.role[k];
    assert Text(y)[|Opening| + k] == y.role[k];
  }

  /** The table entry of a type carries that type's role. */
  lemma EntryRole(t: TransformType)
    ensures PromptTemplates(t).role == Role(t)
  {
  }

  /** The four roles differ in their first or second letter. */
  lemma RolesDiffer(a: TransformType, b: TransformType)
    requires a != b
    ensures 2 <= |Role(a)| && 2 <= |Role(b)|
    ensures Role(a)[0] != Role(b)[0] || Role(a)[1] != Role(b)[1]
  {
  }

  /** Any table that gives each type its role tells the types apart by text. */
  lemma DistinctTexts(table: TransformType -> Template, a: TransformType, b: TransformType)
    requires forall t :: table(t).role == Role(t)
    requires a != b
    ensures Text(table(a)) != Text(table(b))
  {
    RolesDiffer(a, b);
    var k := if Role(a)[0] != Role(b)[0] then 0 else 1;
    TextsDifferByRole(table(a), table(b), k);
  }

  /** No two transform types share a prompt. */
  lemma TemplatesDistinct(a: TransformType, b: TransformType)
    requires a != b
    ensures Text(PromptTemplates(a)) != Text(PromptTemplates(b))
  {
    forall t ensures PromptTemplates(t).role == Role(t) {
      EntryRole(t);
    }
    DistinctTexts(PromptTemplates, a, b);
  }
}

=== FILE: query.dfy ===
/** The part of SQL the store operations use, over a table held as a
    sequence of rows in insertion order: `WHERE`, `ORDER BY … DESC` and
    `LIMIT`. Rows with equal sort keys keep their insertion order. */
module Query {

  /** `WHERE p(row)`: the rows satisfying `p`, in table order. */
  function Where<T>(rows: seq<T>, p: T -> bool): (r: seq<T>)
    ensures |r| <= |rows|
    ensures forall k :: 0 <= k < |r| ==> p(r[k])
    decreases |rows|
  {
    if |rows| == 0 then []
    else
      var rest := Where(rows[1..], p);
      if p(rows[0]) then [rows[0]] + rest else rest
  }

  /** `WHERE` keeps every matching row as often as the table holds it, and
      no other row. */
  lemma {:induction false} WhereCounts<T(!new)>(rows: seq<T>, p: T -> bool)
    ensures forall x :: multiset(Where(rows, p))[x] == if p(x) then multiset(rows)[x] else 0
    decreases |rows|
  {
    if |rows| > 0 {
      WhereCounts(rows[1..], p);
      assert rows == [rows[0]] + rows[1..];
    }
  }

  /** `WHERE` over a table with one more row at the end. */
  lemma {:induction false} WhereAppend<T>(rows: seq<T>, x: T, p: T -> bool)
    ensures Where(rows + [x], p) == Where(rows, p) + (if p(x) then [x] else [])
    decreases |rows|
  {
    if |rows| > 0 {
      assert (rows + [x])[1..] == rows[1..] + [x];
      WhereAppend(rows[1..], x, p);
    } else {
      assert rows + [x] == [x];
    }
  }

  /** `WHERE` only drops rows. */
  lemma {:induction false} WhereSubMultiset<T>(rows: seq<T>, p: T -> bool)
    ensures multiset(Where(rows, p)) <= multiset(rows)
    decreases |rows|
  {
    if |rows| > 0 {
      WhereSubMultiset(rows[1..], p);
      assert rows == [rows[0]] + rows[1..];
    }
  }

  /** Rows drawn from rows that all satisfy `p` satisfy `p`. */
  lemma SubMultisetSatisfies<T>(xs: seq<T>, ys: seq<T>, p: T -> bool)
    requires multiset(xs) <= multiset(ys)
    requires forall k :: 0 <= k < |ys| ==> p(ys[k])
    ensures forall k :: 0 <= k < |xs| ==> p(xs[k])
  {
    forall k | 0 <= k < |xs|
      ensures p(xs[k])
    {
      assert xs[k] in multiset(ys);
    }
  }

  /** Sorted by `key`, largest first. */
  predicate SortedDesc<T>(rows: seq<T>, key: T -> int)
  {
    forall i, j :: 0 <= i < j < |rows| ==> key(rows[i]) >= key(rows[j])
  }

  /** Puts `x` into a sorted list in front of the first row whose key is
      not larger than its own. */
  function Insert<T>(x: T, rows: seq<T>, key: T -> int): (r: seq<T>)
    requires SortedDesc(rows, key)
    ensures SortedDesc(r, key)
    ensures multiset(r) == multiset(rows) + multiset{x}
    ensures |r| == |rows| + 1 && (r[0] == x || (|rows| > 0 && r[0] == rows[0]))
    decreases |rows|
  {
    if |rows| == 0 || key(x) >= key(rows[0]) then [x] + rows
    else
      var rest := Insert(x, rows[1..], key);
      assert rows == [rows[0]] + rows[1..];
      assert key(rows[0]) >= key(rest[0]);
      [rows[0]] + rest
  }

  /** `ORDER BY key DESC`, stable: an insertion sort taking the rows from
      the back, so an earlier row is put in front of later rows with the
      same key. */
  function SortDesc<T>(rows: seq<T>, key: T -> int): (r: seq<T>)
    ensures SortedDesc(r, key)
    ensures multiset(r) == multiset(rows)
    decreases |rows|
  {
    if |rows| == 0 then []
    else
      assert rows == [rows[0]] + rows[1..];
      Insert(rows[0], SortDesc(rows[1..], key), key)
  }

  /** The test `key(row) == v`. */
  function KeyIs<T>(key: T -> int, v: int): T -> bool
  {
    y => key(y) == v
  }

  /** `WHERE` on a row followed by more rows. */
  lemma WhereCons<T>(x: T, rows: seq<T>, p: T -> bool)
    ensures Where([x] + rows, p) == (if p(x) then [x] else []) + Where(rows, p)
  {
    assert ([x] + rows)[0] == x && ([x] + rows)[1..] == rows;
  }

  lemma SwapEmpty<T>(a: seq<T>, b: seq<T>, c: seq<T>)
    requires a == [] || b == []
    ensures a + (b + c) == b + (a + c)
  {
  }

  /** Inserting `x` behind a row with a larger key: that row stays in front. */
  lemma InsertBehind<T>(x: T, rows: seq<T>, key: T -> int, p: T -> bool)
    requires SortedDesc(rows, key)
    requires |rows| > 0 && key(x) < key(rows[0])
    ensures Where(Insert(x, rows, key), p) ==
            (if p(rows[0]) then [rows[0]] else []) + Where(Insert(x, rows[1..], key), p)
  {
    WhereCons(rows[0], Insert(x, rows[1..], key), p);
  }

  /** Inserting `x` adds it in front of the rows with its own key and
      leaves the rows with any other key as they were. */
  lemma {:induction false} InsertKeepsTies<T>(x: T, rows: seq<T>, key: T -> int, v: int)
    requires SortedDesc(rows, key)
    ensures Where(Insert(x, rows, key), KeyIs(key, v)) ==
            (if key(x) == v then [x] else []) + Where(rows, KeyIs(key, v))
    decreases |rows|
  {
    var p := KeyIs(key, v);
    if |rows| == 0 || key(x) >= key(rows[0]) {
      WhereCons(x, rows, p);
    } else {
      var first := if p(rows[0]) then [rows[0]] else [];
      var mine := if p(x) then [x] else [];
      InsertBehind(x, rows, key, p);
      InsertKeepsTies(x, rows[1..], key, v);
      assert rows == [rows[0]] + rows[1..];
      WhereCons(rows[0], rows[1..], p);
      SwapEmpty(first, mine, Where(rows[1..], p));
    }
  }

  /** Stability: among rows with any one key, the sort keeps table order. */
  lemma {:induction false} SortKeepsTies<T>(rows: seq<T>, key: T -> int, v: int)
    ensures Where(SortDesc(rows, key), KeyIs(key, v)) == Where(rows, KeyIs(key, v))
    decreases |rows|
  {
    if |rows| > 0 {
      SortKeepsTies(rows[1..], key, v);
      InsertKeepsTies(rows[0], SortDesc(rows[1..], key), key, v);
    }
  }

  /** `LIMIT n` for a non-negative `n`: the first `n` rows, or all of them. */
  function Take<T>(rows: seq<T>, n: nat): (r: seq<T>)
    ensures |r| == if n <= |rows| then n else |rows|
    ensures r <= rows
  {
    if n <= |rows| then rows[..n] else rows
  }

  /** A prefix of a sorted list is sorted and drawn from it; the whole
      list when it is no longer than `n`. */
  lemma TakeFacts<T>(rows: seq<T>, key: T -> int, n: nat)
    requires SortedDesc(rows, key)
    ensures SortedDesc(Take(rows, n), key)
    ensures multiset(Take(rows, n)) <= multiset(rows)
    ensures |rows| <= n ==> Take(rows, n) == rows
  {
    var r := Take(rows, n);
    assert rows == r + rows[|r|..];
    assert multiset(rows) == multiset(r) + multiset(rows[|r|..]);
  }

  /** A prefix of a list sorted largest first holds its largest keys: a
      row that occurs more often in the list than in the prefix is not
      larger than anything the prefix kept. */
  lemma TakeKeepsNewest<T>(rows: seq<T>, key: T -> int, n: nat)
    requires SortedDesc(rows, key)
    ensures forall x :: multiset(Take(rows, n))[x] < multiset(rows)[x] ==>
              forall y :: y in Take(rows, n) ==> key(y) >= key(x)
  {
    var r := Take(rows, n);
    var rest := rows[|r|..];
    assert rows == r + rest;
    assert multiset(rows) == multiset(r) + multiset(rest);
    forall x | multiset(r)[x] < multiset(rows)[x]
      ensures forall y :: y in r ==> key(y) >= key(x)
    {
      assert x in multiset(rest);
      var j :| 0 <= j < |rest| && rest[j] == x;
      assert rows[|r| + j] == x;
      forall y | y in r
        ensures key(y) >= key(x)
      {
        var i :| 0 <= i < |r| && r[i] == y;
        assert rows[i] == y;
      }
    }
  }

  /** The `n` rows satisfying `p` with the largest keys, largest first:
      `WHERE p ORDER BY key DESC LIMIT n`. As many rows as match, up to
      `n`; and a matching row left out is never larger than a row kept. */
  function SelectNewest<T(!new)>(rows: seq<T>, p: T -> bool, key: T -> int, n: nat): (r: seq<T>)
    ensures |r| == if n <= |Where(rows, p)| then n else |Where(rows, p)|
    ensures forall k :: 0 <= k < |r| ==> p(r[k])
    ensures SortedDesc(r, key)
    ensures multiset(r) <= multiset(Where(rows, p)) <= multiset(rows)
    ensures |Where(rows, p)| <= n ==> multiset(r) == multiset(Where(rows, p))
    ensures forall x :: multiset(r)[x] < multiset(Where(rows, p))[x] ==>
              forall y :: y in r ==> key(y) >= key(x)
  {
    var mine := Where(rows, p);
    var all := SortDesc(mine, key);
    assert |all| == |multiset(all)| == |multiset(mine)| == |mine|;
    TakeFacts(all, key, n);
    TakeKeepsNewest(all, key, n);
    WhereSubMultiset(rows, p);
    SubMultisetSatisfies(Take(all, n), mine, p);
    Take(all, n)
  }
}

=== FILE: rate_limiter.dfy ===
/** The per-user hourly rate limiter over the D1 `rate_limits` table
    (lib/rate-limiter.ts). The table is a map from user id to its row;
    time is an integer count of milliseconds supplied by the caller, and
    each call is a pure step from the old table to the new table and the
    decision returned to the caller. */
module RateLimiter {
  import opened Common

  type UserId = string

  /** `MAX_REQUESTS_PER_HOUR` */
  const MaxRequestsPerHour: int := 5
  /** Length of a window: one hour in milliseconds. */
  const WindowMs: int := 60 * 60 * 1000

  /** One row of `rate_limits`: the admitted count and the end of the window. */
  datatype Record = Record(count: int, resetAt: int)

  /** The `rate_limits` table, keyed by its primary key `user_id`. */
  type Store = map<UserId, Record>

  /** The status snapshot returned to callers (`RateLimit` in types/index.ts). */
  datatype RateLimit = RateLimit(userId: UserId, count: int, resetAt: int, remaining: int)

  datatype Decision = Decision(allowed: bool, rateLimit: RateLimit)

  /** The SQL writes the limiter can issue, by their effect on the table. */
  datatype Write =
    | InsertRow(userId: UserId, count: int, resetAt: int)
    | SetCountAndResetAt(userId: UserId, count: int, resetAt: int)
    | SetCount(userId: UserId, count: int)

  /** The decision together with the writes issued to reach it. */
  datatype Plan = Plan(decision: Decision, writes: seq<Write>)

  /** Effect of one write; `None` when an INSERT hits an existing primary key.
      An UPDATE whose WHERE clause matches no row changes nothing. */
  function ApplyWrite(store: Store, w: Write): Option<Store>
  {
    match w
    case InsertRow(u, c, r) =>
      if u in store then None else Some(store[u := Record(c, r)])
    case SetCountAndResetAt(u, c, r) =>
      if u in store then Some(store[u := Record(c, r)]) else Some(store)
    case SetCount(u, c) =>
      if u in store then Some(store[u := store[u].(count := c)]) else Some(store)
  }

  /** Effect of a sequence of writes run one after another. */
  function ApplyWrites(store: Store, ws: seq<Write>): Option<Store>
    decreases |ws|
  {
    if |ws| == 0 then Some(store)
    else
      match ApplyWrite(store, ws[0])
      case None => None
      case Some(s) => ApplyWrites(s, ws[1..])
  }

  /** Running zero writes or a single write. */
  lemma ApplyAtMostOne(store: Store, ws: seq<Write>)
    requires |ws| <= 1
    ensures |ws| == 0 ==> ApplyWrites(store, ws) == Some(store)
    ensures |ws| == 1 ==> ApplyWrites(store, ws) == ApplyWrite(store, ws[0])
  {
    if |ws| == 1 {
      assert ws[1..] == [];
    }
  }

  /** `SELECT * FROM rate_limits WHERE user_id = ?` followed by `.first()`. */
  function Lookup(store: Store, u: UserId): (r: Option<Record>)
    ensures r.Some? <==> u in store
    ensures r.Some? ==> r.value == store[u]
  {
    if u in store then Some(store[u]) else None
  }

  /** What `checkAndUpdateRateLimit` decides and writes once it has read
      the user's row (`existing`, absent when there is none). */
  function PlanCheck(existing: Option<Record>, u: UserId, now: int): (p: Plan)
    ensures |p.writes| == (if p.decision.allowed then 1 else 0)
    ensures forall k :: 0 <= k < |p.writes| ==> p.writes[k].userId == u
    ensures forall k :: 0 <= k < |p.writes| ==> (p.writes[k].InsertRow? <==> existing.None?)
    ensures p.decision.rateLimit.userId == u
    ensures !p.decision.allowed <==>
              existing.Some? && now <= existing.value.resetAt && existing.value.count >= MaxRequestsPerHour
  {
    match existing
    case None =>
      var resetAt := now + WindowMs;
      Plan(Decision(true, RateLimit(u, 1, resetAt, MaxRequestsPerHour - 1)),
           [InsertRow(u, 1, resetAt)])
    case Some(row) =>
      if now > row.resetAt then
        var newResetAt := now + WindowMs;
        Plan(Decision(true, RateLimit(u, 1, newResetAt, MaxRequestsPerHour - 1)),
             [SetCountAndResetAt(u, 1, newResetAt)])
      else if row.count >= MaxRequestsPerHour then
        Plan(Decision(false, RateLimit(u, row.count, row.resetAt, 0)), [])
      else
        var newCount := row.count + 1;
        Plan(Decision(true, RateLimit(u, newCount, row.resetAt, MaxRequestsPerHour - newCount)),
             [SetCount(u, newCount)])
  }

  /** One call of `checkAndUpdateRateLimit(db, userId)` at time `now`:
      the table afterwards and the decision returned. */
  function CheckAndUpdate(store: Store, u: UserId, now: int): (res: (Store, Decision))
    // No row: create one with count 1 and a fresh window; 4 remaining.
    ensures u !in store ==>
              res.0 == store[u := Record(1, now + WindowMs)] &&
              res.1 == Decision(true, RateLimit(u, 1, now + WindowMs, MaxRequestsPerHour - 1))
    // Window over (strictly after resetAt): hard reset, the old count is discarded.
    ensures u in store && now > store[u].resetAt ==>
              res.0 == store[u := Record(1, now + WindowMs)] &&
              res.1 == Decision(true, RateLimit(u, 1, now + WindowMs, MaxRequestsPerHour - 1))
    // Quota used up inside the window: denied, table untouched.
    ensures u in store && now <= store[u].resetAt && store[u].count >= MaxRequestsPerHour ==>
              res.0 == store &&
              res.1 == Decision(false, RateLimit(u, store[u].count, store[u].resetAt, 0))
    // Otherwise: count goes up by exactly one, the window end is kept.
    ensures u in store && now <= store[u].resetAt && store[u].count < MaxRequestsPerHour ==>
              res.0 == store[u := Record(store[u].count + 1, store[u].resetAt)] &&
              res.1 == Decision(true, RateLimit(u, store[u].count + 1, store[u].resetAt,
                                                MaxRequestsPerHour - (store[u].count + 1)))
    // Only the caller's row is ever touched, and it always exists afterwards.
    ensures u in res.0 && res.0.Keys == store.Keys + {u}
    ensures forall v :: v in store && v != u ==> res.0[v] == store[v]
    // Admission always changes the table; denial never does.
    ensures res.1.allowed <==> res.0 != store
  {
    var p := PlanCheck(Lookup(store, u), u, now);
    ApplyAtMostOne(store, p.writes);
    match ApplyWrites(store, p.writes)
    case Some(s) => (s, p.decision)
    case None => assert false; (store, p.decision)
  }

  /** `getRateLimit(db, userId)` at time `now`: a read-only status query. */
  function GetRateLimit(store: Store, u: UserId, now: int): (r: Option<RateLimit>)
    ensures r.None? <==> u !in store
    ensures r.Some? ==> r.value.userId == u && 0 <= r.value.remaining
    ensures r.Some? && now > store[u].resetAt ==>
              r.value == RateLimit(u, 0, now + WindowMs, MaxRequestsPerHour)
    ensures r.Some? && now <= store[u].resetAt ==>
              r.value.count == store[u].count && r.value.resetAt == store[u].resetAt &&
              r.value.remaining + Min(store[u].count, MaxRequestsPerHour) == MaxRequestsPerHour
  {
    match Lookup(store, u)
    case None => None
    case Some(row) =>
      if now > row.resetAt then
        Some(RateLimit(u, 0, now + WindowMs, MaxRequestsPerHour))
      else
        Some(RateLimit(u, row.count, row.resetAt, Max(0, MaxRequestsPerHour - row.count)))
  }

  /** The status query, asked at the same instant right after a check,
      reports exactly the snapshot the check returned, whatever the branch. */
  lemma StatusMatchesDecision(store: Store, u: UserId, now: int)
    ensures GetRateLimit(CheckAndUpdate(store, u, now).0, u, now) ==
            Some(CheckAndUpdate(store, u, now).1.rateLimit)
  {
  }

  /** Once the window is over, a call behaves exactly as if the user had
      never been seen: same table afterwards, same decision. */
  lemma ExpiredIsLikeFresh(store: Store, u: UserId, now: int)
    requires u in store && now > store[u].resetAt
    ensures CheckAndUpdate(store, u, now) == CheckAndUpdate(store - {u}, u, now)
  {
    assert store[u := Record(1, now + WindowMs)] == (store - {u})[u := Record(1, now + WindowMs)];
  }

  /** Every row holds a count in 1..MAX: true of any table built only by calls. */
  predicate WellFormed(store: Store)
  {
    forall v :: v in store ==> 1 <= store[v].count <= MaxRequestsPerHour
  }

  /** Calls keep counts in 1..MAX and only ever report 0..MAX-1 remaining. */
  lemma CheckPreservesWellFormed(store: Store, u: UserId, now: int)
    requires WellFormed(store)
    ensures WellFormed(CheckAndUpdate(store, u, now).0)
    ensures 0 <= CheckAndUpdate(store, u, now).1.rateLimit.remaining <= MaxRequestsPerHour - 1
  {
  }

  /** A sequence of calls by one user at the given instants. */
  function Run(store: Store, u: UserId, times: seq<int>): (res: (Store, seq<Decision>))
    ensures |res.1| == |times|
    decreases |times|
  {
    if |times| == 0 then (store, [])
    else
      var first := CheckAndUpdate(store, u, times[0]);
      var rest := Run(first.0, u, times[1..]);
      (rest.0, [first.1] + rest.1)
  }

  /** Calls that all fall inside the current window: the k-th is admitted
      exactly while the quota lasts, the count climbs to MAX and stays there,
      and the window end never moves. */
  lemma {:induction false} RunInsideWindow(store: Store, u: UserId, times: seq<int>)
    requires u in store && 1 <= store[u].count <= MaxRequestsPerHour
    requires forall k :: 0 <= k < |times| ==> times[k] <= store[u].resetAt
    ensures var (s, ds) := Run(store, u, times);
            var c := store[u].count;
            && u in s && s[u] == Record(Min(c + |times|, MaxRequestsPerHour), store[u].resetAt)
            && forall k :: 0 <= k < |times| ==>
                 var n := Min(c + k + 1, MaxRequestsPerHour);
                 ds[k] == Decision(c + k < MaxRequestsPerHour,
                                   RateLimit(u, n, store[u].resetAt, MaxRequestsPerHour - n))
    decreases |times|
  {
    if |times| > 0 {
      var (s1, d) := CheckAndUpdate(store, u, times[0]);
      RunInsideWindow(s1, u, times[1..]);
      var (sN, ds) := Run(s1, u, times[1..]);
      assert Run(store, u, times).1 == [d] + ds;
    }
  }

  /** Starting with no row, calls within an hour of the first one are
      admitted with remaining 4, 3, 2, 1, 0 and every later one is denied. */
  lemma FreshBurst(store: Store, u: UserId, times: seq<int>)
    requires u !in store && |times| > 0
    requires forall k :: 0 <= k < |times| ==> times[k] <= times[0] + WindowMs
    ensures forall k :: 0 <= k < |times| ==>
              && Run(store, u, times).1[k].allowed == (k < MaxRequestsPerHour)
              && Run(store, u, times).1[k].rateLimit.remaining == Max(0, MaxRequestsPerHour - 1 - k)
  {
    var (s1, d) := CheckAndUpdate(store, u, times[0]);
    RunInsideWindow(s1, u, times[1..]);
  }

  /** A run is its first call followed by the run of the rest. */
  lemma RunCons(store: Store, u: UserId, t: int, ts: seq<int>)
    ensures var (s1, d) := CheckAndUpdate(store, u, t);
            && Run(store, u, [t] + ts).0 == Run(s1, u, ts).0
            && Run(store, u, [t] + ts).1 == [d] + Run(s1, u, ts).1
  {
    assert ([t] + ts)[0] == t && ([t] + ts)[1..] == ts;
  }

  /** From no row: six calls within an hour of the first, then one more
      after that hour is over. The first five are admitted with remaining
      4 down to 0, the sixth is denied at count 5, and the late call starts
      a new window with count 1. */
  lemma BurstThenReset(store: Store, u: UserId, times: seq<int>, late: int)
    requires u !in store && |times| == 6
    requires forall k :: 0 <= k < 6 ==> times[k] <= times[0] + WindowMs
    requires late > times[0] + WindowMs
    ensures var ds := Run(store, u, times + [late]).1;
            && (forall k :: 0 <= k < 5 ==> ds[k].allowed && ds[k].rateLimit.remaining == 4 - k)
            && !ds[5].allowed && ds[5].rateLimit.remaining == 0 && ds[5].rateLimit.count == 5
            && ds[6] == Decision(true, RateLimit(u, 1, late + WindowMs, MaxRequestsPerHour - 1))
  {
    var (s1, d) := CheckAndUpdate(store, u, times[0]);
    RunCons(store, u, times[0], times[1..]);
    assert [times[0]] + times[1..] == times;
    RunInsideWindow(s1, u, times[1..]);
    var s6 := Run(store, u, times).0;
    assert s6[u] == Record(5, times[0] + WindowMs);
    RunSplit(store, u, times, [late]);
    RunCons(s6, u, late, []);
    assert [late] + [] == [late];
  }

  /** Running two batches back to back is running their concatenation. */
  lemma {:induction false} RunSplit(store: Store, u: UserId, xs: seq<int>, ys: seq<int>)
    ensures Run(store, u, xs + ys).1 == Run(store, u, xs).1 + Run(Run(store, u, xs).0, u, ys).1
    ensures Run(store, u, xs + ys).0 == Run(Run(store, u, xs).0, u, ys).0
    decreases |xs|
  {
    if |xs| > 0 {
      var first := CheckAndUpdate(store, u, xs[0]);
      assert (xs + ys)[0] == xs[0];
      assert (xs + ys)[1..] == xs[1..] + ys;
      RunSplit(first.0, u, xs[1..], ys);
    } else {
      assert xs + ys == ys;
    }
  }
}

=== FILE: rate_limiter_postgres.dfy ===
/** The Postgres copy of the rate limiter (lib/rate-limiter-postgres.ts).
    It reads the user's rows as a result set (`existing.rows`) instead of a
    single optional row, and is otherwise the same algorithm; this module
    models it on its own and proves it equivalent to the D1 copy. */
module RateLimiterPostgres {
  import opened Common
  import RL = RateLimiter

  /** `SELECT * FROM rate_limits WHERE user_id = ${userId}`: `.rows`.
      `user_id` is the primary key, so there is at most one row. */
  function SelectRows(store: RL.Store, u: RL.UserId): (rows: seq<RL.Record>)
    ensures |rows| <= 1
    ensures |rows| == 0 <==> u !in store
    ensures |rows| == 1 ==> rows[0] == store[u]
  {
    if u in store then [store[u]] else []
  }

  /** The decision and writes, from the result rows. */
  function PlanCheck(rows: seq<RL.Record>, u: RL.UserId, now: int): (p: RL.Plan)
    ensures |p.writes| == (if p.decision.allowed then 1 else 0)
    ensures forall k :: 0 <= k < |p.writes| ==> p.writes[k].userId == u
    // Denied exactly for a live row whose count has reached the quota.
    ensures !p.decision.allowed <==>
              |rows| > 0 && now <= rows[0].resetAt && rows[0].count >= RL.MaxRequestsPerHour
    // Only the first row is read: the D1 plan for that row, or for none.
    ensures p == RL.PlanCheck(if |rows| == 0 then None else Some(rows[0]), u, now)
  {
    if |rows| == 0 then
      var resetAt := now + RL.WindowMs;
      RL.Plan(RL.Decision(true, RL.RateLimit(u, 1, resetAt, RL.MaxRequestsPerHour - 1)),
              [RL.InsertRow(u, 1, resetAt)])
    else
      var record := rows[0];
      if now > record.resetAt then
        var newResetAt := now + RL.WindowMs;
        RL.Plan(RL.Decision(true, RL.RateLimit(u, 1, newResetAt, RL.MaxRequestsPerHour - 1)),
                [RL.SetCountAndResetAt(u, 1, newResetAt)])
      else if record.count >= RL.MaxRequestsPerHour then
        RL.Plan(RL.Decision(false, RL.RateLimit(u, record.count, record.resetAt, 0)), [])
      else
        var newCount := record.count + 1;
        RL.Plan(RL.Decision(true, RL.RateLimit(u, newCount, record.resetAt, RL.MaxRequestsPerHour - newCount)),
                [RL.SetCount(u, newCount)])
  }

  /** One call of the Postgres `checkAndUpdateRateLimit(userId)` at `now`. */
  function CheckAndUpdate(store: RL.Store, u: RL.UserId, now: int): (res: (RL.Store, RL.Decision))
    // No row: INSERT count 1 with a window ending one hour from now.
    ensures u !in store ==>
              res.0 == store[u := RL.Record(1, now + RL.WindowMs)] &&
              res.1 == RL.Decision(true, RL.RateLimit(u, 1, now + RL.WindowMs, RL.MaxRequestsPerHour - 1))
    // Window over: count back to 1, window moved forward, old count gone.
    ensures u in store && now > store[u].resetAt ==>
              res.0 == store[u := RL.Record(1, now + RL.WindowMs)] &&
              res.1 == RL.Decision(true, RL.RateLimit(u, 1, now + RL.WindowMs, RL.MaxRequestsPerHour - 1))
    // Quota used up: denied with nothing remaining and no UPDATE.
    ensures u in store && now <= store[u].resetAt && store[u].count >= RL.MaxRequestsPerHour ==>
              res.0 == store &&
              res.1 == RL.Decision(false, RL.RateLimit(u, store[u].count, store[u].resetAt, 0))
    // Otherwise: one more admitted request, same window end.
    ensures u in store && now <= store[u].resetAt && store[u].count < RL.MaxRequestsPerHour ==>
              res.0 == store[u := RL.Record(store[u].count + 1, store[u].resetAt)] &&
              res.1 == RL.Decision(true, RL.RateLimit(u, store[u].count + 1, store[u].resetAt,
                                                      RL.MaxRequestsPerHour - (store[u].count + 1)))
  {
    var p := PlanCheck(SelectRows(store, u), u, now);
    RL.ApplyAtMostOne(store, p.writes);
    match RL.ApplyWrites(store, p.writes)
    case Some(s) => (s, p.decision)
    case None => assert false; (store, p.decision)
  }

  /** Both copies issue the same writes and return the same decision for
      the same stored row and the same instant, so they also leave the
      same table behind. */
  lemma SameAsD1(store: RL.Store, u: RL.UserId, now: int)
    ensures PlanCheck(SelectRows(store, u), u, now) == RL.PlanCheck(RL.Lookup(store, u), u, now)
    ensures CheckAndUpdate(store, u, now) == RL.CheckAndUpdate(store, u, now)
  {
  }
}
